=== FILE: README.md ===
# AFK watchdog bot with progression — a Dafny model

This project models the core of a chat-server bot that watches voice
channels. When a member joins voice, the bot arms a check timer. When the
timer fires, the bot posts a presence challenge in a text channel. The member
must answer with a ✅ reaction or the text `!here` before a deadline, or the
bot disconnects them. The current bot (`bot.js`) adds several things on top
of this:

- a capacity ceiling and a load advisory;
- a rate-limited outbound queue;
- a progression engine (`gamification.js` over `database.js`): XP per
  session with a streak multiplier, levels, day streaks, idempotent
  achievements, role rewards, profiles and leaderboards.

The older single-file bot (`index.js`) runs the same watchdog without these
additions. The dashboard server (`server.js`) and its page
(`public/script.js`) validate settings, list achievements and format times.

How the model is built:

- Everything is pure transitions over immutable values.
- Timers are map entries:
  - a check timer is `live` until its callback runs;
  - a deadline is a numbered handle in `deadlines`.
- Each event is a function: join, leave, move, timer-fire, drain turn,
  reaction, message and deadline.
- The clock (`now`), the calendar day (`today`) and the hour are inputs.
- Whatever the bot learns from the platform is an input too: the channel
  list, whether a post or a disconnect succeeded, whether the member is
  still in voice (`CheckView`, `KickView`).
- Floating-point arithmetic is replaced by exact integer arithmetic:
  - the streak multiplier is counted in quarters;
  - `floor(sqrt(xp / 100))` is computed as `Isqrt(xp / 100)`. The two are
    equal for every `xp >= 0`.

Modules, in dependency order:

| module | models |
|---|---|
| `Common` | option type, identifier aliases, `Min` |
| `Leveling` | the level formula and its thresholds (`database.js`) |
| `Store` | the user/achievement/session tables as maps and sets (`database.js`) |
| `Leaderboard` | the three top-N queries, as sort-then-take (`database.js`) |
| `Gamification` | achievements, multiplier, XP, role rewards, join/leave sessions, profile |
| `Delivery` | the FIFO message queue with its busy flag (`bot.js`) |
| `Channels` | text-channel selection and the confirmation tokens (both bots) |
| `Presence` | the per-user watchdog maps shared by both bots |
| `Watchdog` | the current bot's event handlers, invariant and traces (`bot.js`) |
| `Legacy` | the original bot's event handlers, invariant and traces (`index.js`) |
| `Settings` | the settings record, its merge and its ms intervals |
| `Server` | the settings endpoints and the achievement listing (`server.js`) |
| `Dashboard` | time formatting, the client-side settings check, the log cap |

The central invariant is `Presence.Inv`: live deadline timers and pending
confirmations correspond one to one. `Watchdog.Inv` adds two more conditions:

- every open XP session belongs to a stored user and started no later than now;
- the engine's open sessions are exactly the users with an open stay.

`Watchdog.Run` and `Legacy.Run` prove that every trace of events preserves
these invariants, with a new challenge superseding the pending one (see
"## Findings"). With the overwrite as the code writes it, the invariant does
not hold: `Watchdog.ConfirmLeavesOrphan` shows a trace that breaks it.

## Model

| member | source | states |
|---|---|---|
| Leveling.Isqrt | database.js:109 | the integer square root: r² ≤ n < (r+1)², which is what `Math.floor(Math.sqrt(n))` yields |
| Leveling.CalculateLevel | database.js:106-110 | the level is at least 1 and xp lies in its band: (level−1)²·100 ≤ xp < level²·100 |
| Leveling.LevelUnique | database.js:106-110 | the band determines the level: any level whose band contains xp is the computed one |
| Leveling.LevelThresholdRoundTrip | database.js:107-115 | reaching the next-level threshold L²·100 yields level L+1, and one XP less still yields L |
| Leveling.LevelMonotone | database.js:106-110 | more XP never gives a lower level |
| Leveling.LevelAtLeast | database.js:109-115 | level ≥ L exactly when xp ≥ (L−1)²·100, the threshold the next-level function reports for L−1 |
| Leveling.LevelExamples | database.js:107-109 | 2499 XP is level 5 and 2500 XP is level 6 |
| Store.GetAfterCreate | database.js:68-80 | a lookup after an insert-or-ignore finds the user: the old record when there was one, otherwise a fresh record at level 1 with 0 XP; lookups of other ids are unchanged |
| Store.CreateUser | database.js:73-80 | insert-or-ignore: an existing record is returned untouched; a new one starts at level 1 with 0 XP, 0 time, streak 0, stamped today; no other record changes |
| Store.CreateUserIdempotent | database.js:73-80 | creating a user twice, with any name or day, is the same as creating them once |
| Store.SetTotalTime | database.js:82-90 | only the named user's total time changes; unknown ids change nothing |
| Store.SetTotalTimeReadBack | database.js:82-90 | a written total time reads back as written, the last of two writes wins, and a consistent level stays consistent |
| Store.AddXP | database.js:93-104 | unknown user gives no result and no change; otherwise XP grows by the amount, the stored level is the band of the new XP, and a level-up is reported iff the new level exceeds the stored one |
| Store.AddXPLevelUp | database.js:93-104 | after adding XP the stored level agrees with the formula; from a consistent record a level-up happens exactly when the new XP reaches the next threshold |
| Store.AddXPCrossingExample | database.js:93-104 | going from 2499 to 2500 XP reports a level-up to 6 |
| Store.UpdateStreak | database.js:168-198 | unknown user gives 0 and no change; no stamp gives 1; same day keeps, next day adds one, any other gap restarts at 1; the day is stamped in every case with a record |
| Store.UpdateStreakSameDayIdempotent | database.js:181-185 | a second update on the same day changes nothing and reports the same streak |
| Store.ConsecutiveDaysExtendStreak | database.js:186-188 | activity on k consecutive days following the last stamp raises the streak by exactly k |
| Store.FreshUserFirstStreakIsZero | database.js:168-185 | with creation and the streak update reading the same calendar day (a bot process running in UTC), a user created today is already stamped today, so the first streak update keeps streak 0 |
| Store.UnlockAchievement | database.js:138-145 | the (user, kind) pair is in the set afterwards; the answer is true iff it was not there before |
| Store.UnlockIdempotent | database.js:138-165 | after an unlock the achievement is held, and unlocking again reports false and changes nothing |
| Store.StartSession | database.js:118-126 | the user exists afterwards, one open session row is appended, and its id is the new row count |
| Store.EndSession | database.js:128-135 | only the named row is closed with its leave time, duration and XP; an unknown id changes nothing |
| Leaderboard.RanksTransitive | database.js:212-220 | each leaderboard ordering, including level-then-xp, is transitive |
| Leaderboard.RanksTotal | database.js:212-220 | any two users are comparable under each ordering |
| Leaderboard.Insert | database.js:202-230 | insertion into a sorted list keeps it sorted and adds exactly the one row |
| Leaderboard.SortBy | database.js:202-230 | the result is sorted by the ordering and is a permutation of the input |
| Leaderboard.TopBy | database.js:202-230 | min(limit, n) rows, sorted, drawn from the input, and every returned row ranks at least as high as every omitted row |
| Leaderboard.TopByTime | database.js:202-210 | at most `limit` rows, descending by total time, none outranked by an omitted row |
| Leaderboard.TopByLevel | database.js:212-220 | at most `limit` rows, descending by level then XP, none outranked by an omitted row |
| Leaderboard.TopByStreak | database.js:222-230 | at most `limit` rows, descending by current streak, none outranked by an omitted row |
| Gamification.AllKindsComplete | gamification.js:10-63 | the table lists every achievement kind |
| Gamification.LevelAchievementThresholds | gamification.js:34-61 | for a level-consistent record, Veteran/Master/Legend/Century hold exactly from 8100/57600/240100/980100 XP |
| Gamification.MultiplierQuarters | gamification.js:133-138 | the multiplier is between 1× and 2× |
| Gamification.MultiplierMonotone | gamification.js:133-138 | a longer streak never lowers the multiplier |
| Gamification.SessionXP | gamification.js:92-101 | XP is the floor of minutes × multiplier, so between one and two XP per minute |
| Gamification.SessionXPExamples | gamification.js:92-101 | a zero-length session earns 0; 60 minutes on a 7-day streak earns 75 |
| Gamification.CheckKinds | gamification.js:141-164 | the walk reports exactly the listed kinds that hold and were not held, and unlocks every listed kind that holds |
| Gamification.CheckAchievements | gamification.js:141-164 | reports exactly the kinds whose predicate holds and were not held; afterwards every kind that holds is held; nothing is lost |
| Gamification.NoKindReportedTwice | gamification.js:146-160 | a kind reported once is never reported by a later check, whatever its context |
| Gamification.RecheckReportsNothing | gamification.js:146-160 | repeating a check with the same context reports nothing |
| Gamification.CheckRoleReward | gamification.js:206-220 | a reward exists exactly at levels 5, 10, 25, 50 and 100 |
| Gamification.RoleRewardIdentifiesLevel | gamification.js:206-214 | no two milestones share a role, so a granted role determines the level reached |
| Gamification.RoleRewardSkippedMilestone | gamification.js:217-220 | a level that jumps past a milestone without landing on it earns no reward |
| Gamification.HandleUserJoin | gamification.js:66-84 | the user exists afterwards, an existing record is not recreated, the streak rule is applied, a session row is opened, and the user's open session is replaced by one starting now; a brand-new user is stored as the fresh record (level 1, 0 XP, 0 time, stamped today) and the join reports streak 0 |
| Gamification.HandleUserJoinValid | gamification.js:78-81 | a join keeps every open session belonging to a stored user and not in the future |
| Gamification.HandleUserLeave | gamification.js:87-130 | no open session gives no result and no change; otherwise whole minutes are added to total time, the XP they earn under the pre-leave streak is added with a fresh consistent level, the session row is closed with the leave time, those minutes and that XP while every other row stays as it was, the new achievements are reported, every achievement whose condition holds is held afterwards, and the open session is dropped |
| Gamification.HandleUserLeaveValid | gamification.js:88-120 | a leave keeps the open sessions valid |
| Gamification.LaterLeaveReportsNoRepeat | gamification.js:114-118 | an achievement reported by one leave is never reported again by a later leave after the user rejoins |
| Gamification.ZeroLengthSession | gamification.js:92-105 | a session that ends when it starts earns no XP and adds no time |
| Gamification.GetUserProfile | gamification.js:167-192 | an unknown user has no profile; otherwise the profile shows the next threshold, the progress such that progress plus the current level's threshold is the XP, and exactly the held achievements |
| Gamification.ProfileProgressInBand | gamification.js:172-175 | for a consistent record the progress lies in [0, width of the current level band) |
| Delivery.EnqueueThenNext | bot.js:266-285 | first in, first out: a task added to a running drain is handed out only after every task already waiting, and adding commutes with taking the head |
| Delivery.StartDrain | bot.js:262-264 | a drain is marked running iff one was running or there is work |
| Delivery.NextTask | bot.js:266-277 | the head task is handed out in FIFO order; an empty queue ends the drain with the flag cleared |
| Delivery.Pauses | bot.js:268-274 | there are never more pauses than tasks |
| Delivery.PausesWithoutFailures | bot.js:268-274 | when no task throws, every task is followed by a pause |
| Delivery.ProcessMessageQueue | bot.js:261-278 | a call while busy or with nothing queued does nothing; otherwise every task runs once in enqueue order, only non-throwing tasks pause, and the queue ends empty with the flag cleared |
| Channels.FindFrom | bot.js:305-312 | the found index is the first one at or after the start that satisfies the predicate; none means none does |
| Channels.Find | bot.js:305-312 | the found index is the first that satisfies the predicate; none iff no channel does |
| Channels.SelectTextChannel | bot.js:305-315 | the first preferred channel wins if any exists; otherwise the first postable one; none iff no channel is postable; a thread or non-text channel is never picked |
| Channels.NoPreferenceAmongNames | bot.js:305-309 | "general" listed before the voice channel's namesake is chosen over it |
| Channels.ThreadsNeverSelected | bot.js:305-312 | a thread named "general" and a non-text channel give no selection |
| Channels.ToLower | bot.js:142 | lower-casing keeps the length and maps each character independently |
| Channels.HereCommandVariants | bot.js:142 | the text confirmation accepts exactly the case variants of "!here" |
| Presence.AtMostOneDeadline | bot.js:332-348 | under the invariant no user has two live deadlines, and a user has one exactly when a challenge is pending |
| Presence.PostChallengeAsWritten | bot.js:343-348 | the new challenge replaces the pending entry and its deadline is added, with the old deadline left armed |
| Presence.PostChallenge | bot.js:332-348 | the new challenge is recorded with the only deadline the user has, other users' challenges are untouched, and the invariant is kept |
| Presence.Confirm | bot.js:360-389 | with nothing pending nothing changes; otherwise the challenge and its deadline are cancelled and a live check is re-armed at the challenge's channel and guild |
| Presence.ConfirmLeavesNoDeadline | bot.js:360-365 | under the invariant, a confirmation leaves the user with no deadline that could remove them |
| Presence.Leave | bot.js:191-235 | an open stay is folded into the total and closed; the check timer and the pending challenge are always removed; the tracking entry is kept |
| Presence.LeaveKeepsInv | bot.js:233-234 | a departure keeps the invariant and leaves the user no deadline |
| Presence.Decide | bot.js:289-356 | unresolved cache gives up; a member out of voice stops being watched; no postable channel or a failed post re-arms; otherwise the challenge is out |
| Presence.ApplyCheck | bot.js:300-356 | applying a check's outcome, with the corrected posting, keeps the invariant and never touches voice-time tracking |
| Presence.ExpireKeepsInv | bot.js:332-341 | a fired deadline keeps the invariant and leaves its user with no challenge and no deadline |
| Watchdog.HandleJoin | bot.js:152-187 | at 500 watched users a join is refused and changes nothing; the load advisory fires iff ≥100 and a multiple of 50; an admitted join starts the stay now, keeps earlier time, arms one live check and opens an XP session |
| Watchdog.HandleLeave | bot.js:191-235 | the check timer and any challenge are cancelled; the XP engine sees the leave exactly when a stay was open; the coupling between open stays and open sessions is kept |
| Watchdog.TimerFires | bot.js:281-287 | a live timer enqueues its check behind earlier ones and starts the drain; its entry stays, no longer live; a dead or cancelled timer does nothing |
| Watchdog.QueueStep | bot.js:266-275 | a drain turn pops the head task and applies its check's outcome to the user it names, or ends an empty drain; with the corrected posting the invariant is kept |
| Watchdog.ReactionAdded | bot.js:119-136 | a reaction confirms exactly when it is from a non-bot, could be loaded, and is ✅ on the user's current challenge; otherwise nothing changes |
| Watchdog.MessageCreated | bot.js:139-148 | a message confirms exactly when it is from a non-bot, reads "!here" in any case, and a challenge is pending; otherwise nothing changes |
| Watchdog.DeadlineFires | bot.js:332-341 | a live deadline is spent and its user's challenge dropped; the user is reported disconnected iff in voice and the disconnect succeeded; the leave runs iff the kick got that far |
| Watchdog.JoinKeepsInv | bot.js:152-187 | a join keeps the bot invariant |
| Watchdog.LeaveKeepsInv | bot.js:191-235 | a leave keeps the bot invariant |
| Watchdog.DeadlineKeepsInv | bot.js:401-442 | a fired deadline keeps the bot invariant, whatever the kick met |
| Watchdog.HandleMove | bot.js:107-110 | the move frees the mover's own slot before the capacity check (a watched user is readmitted even at 500); if admitted, the old stay's time is banked, a new stay starts now, a live check is armed for the new channel and no challenge is left; if refused, the departure still stands |
| Watchdog.Step | bot.js:89-148 | with the corrected posting, every event keeps deadlines one-to-one with pending challenges and every open XP session valid |
| Watchdog.StepKeepsInv | bot.js:89-148 | with the corrected posting, every event keeps the bot invariant |
| Watchdog.Run | bot.js:89-148 | with the corrected posting, any trace with a non-decreasing clock keeps the bot invariant |
| Watchdog.JoinRespectsCeiling | bot.js:154-159 | a join adds at most one watched user and never lifts the count above 500 |
| Watchdog.DepartureFreesSlot | bot.js:107-110 | a leave frees the user's slot, so a move at full capacity is readmitted |
| Watchdog.MoveRestartsAccrual | bot.js:107-110 | a move banks the old stay, starts a new one now, arms a live check for the new channel and leaves no challenge |
| Watchdog.ConfirmAfterKickIsNoop | bot.js:139-148 | once the deadline has fired, a late "!here" changes nothing |
| Watchdog.ConfirmedUserHasNoDeadline | bot.js:360-365 | under the invariant, a user who just confirmed has no deadline left |
| Watchdog.TwoChecksQueued | bot.js:281-287 | two checks for the same user can wait in the queue together: join, fire, move, fire |
| Watchdog.TwoPostsAsWritten | bot.js:343-348 | as written, the second post replaces the first challenge while both deadlines stay armed |
| Watchdog.ConfirmLeavesOrphan | bot.js:360-365 | confirming the newer challenge leaves the older deadline armed with nothing pending, breaking the invariant |
| Watchdog.BothSentThenConfirmedAsWritten | bot.js:343-348 | as written, after both posts and a "!here" the first deadline is still armed for the user |
| Watchdog.DuplicateChallengeKicksConfirmedUser | bot.js:343-348 | as written, the full schedule ends with a confirmed user being disconnected by the orphan deadline |
| Watchdog.DuplicateChallengeCorrected | bot.js:343-348 | with each challenge superseding the previous one, the same schedule leaves the confirmed user no deadline |
| Watchdog.BothSentThenConfirmed | bot.js:343-348 | corrected posting followed by a "!here" leaves no deadline for the user |
| Legacy.HandleJoin | index.js:54-67 | with no admission control: the stay starts now, earlier time is kept, exactly the user's check timer is (re)armed live while every other timer is unchanged, and the invariant is kept |
| Legacy.HandleLeave | index.js:70-87 | an open stay is banked and closed; the check timer and any challenge are always cancelled, no deadline for the user remains under the invariant, and other users' challenges are untouched |
| Legacy.HandleMove | index.js:46-49 | the old stay's time is banked into the total, a fresh stay starts now, the check is re-armed for the new channel, no challenge or deadline is left for the user, and other users' stays are unchanged |
| Legacy.TimerFires | index.js:111-174 | a live timer sends its check at once and applies the outcome, keeping the invariant with the corrected posting; a dead timer does nothing |
| Legacy.ReactionAdded | index.js:177-184 | a reaction confirms exactly when it is from a non-bot and is ✅ on the current challenge |
| Legacy.MessageCreated | index.js:187-196 | a message confirms exactly when it is from a non-bot, reads "!here" in any case, and a challenge is pending |
| Legacy.DeadlineFires | index.js:226-251 | a fired deadline keeps the invariant and drops the challenge; the leave runs only when the kick completes, including the notice |
| Legacy.Step | index.js:29-51 | with the corrected posting, every event keeps the invariant |
| Legacy.Run | index.js:29-51 | with the corrected posting, any trace of events keeps the invariant |
| Legacy.FailedNoticeSkipsLeave | index.js:239-247 | when the kick notice fails, the disconnected user's timer entry and voice time stay as they were |
| Settings.UpdateSettings | bot.js:591-592 | shallow merge: updated keys take the new values, every other key keeps its value, no key is lost |
| Settings.IntervalsFollowMinutes | bot.js:54-60 | each interval is determined by its minutes setting and ordered like it: equal settings give equal intervals and a longer setting a longer interval |
| Settings.UpdateOneInterval | bot.js:54-60 | saving only one of the two minute settings changes only that interval, and the saved minutes read back from it |
| Settings.DefaultsMatchLegacy | bot.js:26-29 | the defaults give the original bot's 30-minute interval and 2-minute timeout |
| Settings.IntervalsInRange | server.js:75-81 | accepted settings give an interval of 1 minute to 3 hours and a timeout of 1 to 10 minutes |
| Server.GetSettingsBeforeLoad | server.js:58-65 | before any bot is loaded the page is shown settings giving the original bot's 30-minute interval and 2-minute timeout |
| Server.PostSettings | server.js:67-94 | the three 400 answers fire in order and each exactly under its condition; a refusal changes nothing; success merges exactly the two values |
| Server.ZeroReportedMissing | server.js:71-73 | a zero interval is reported as missing, not as out of range |
| Server.GetAfterPost | server.js:88-89 | after a successful save, reading the settings returns the saved values with every other key unchanged |
| Server.AchievementListComplete | server.js:172-178 | every achievement appears in the listing |
| Server.AchievementListDistinct | server.js:173-177 | no id is listed twice |
| Dashboard.NatToString | public/script.js:183 | a number prints as decimal digits with no leading zero |
| Dashboard.DecimalRoundTrip | public/script.js:183 | reading the printed digits back gives the number |
| Dashboard.IntRoundTrip | public/script.js:199-205 | a signed number, minus sign included, reads back as itself, so distinct numbers print differently |
| Dashboard.TimeReading | public/script.js:175-189 | missing, zero or negative shows nothing measurable; otherwise the largest non-zero unit is shown, the shown units bracket the value, and minutes and seconds stay below 60 |
| Dashboard.FormatTimeExamples | public/script.js:175-188 | 0 and negatives show "0m", 500 ms shows "0s", 59999 ms "59s", one minute "1m", 3660000 ms "1h 1m" |
| Dashboard.UptimeReading | public/script.js:192-207 | the largest non-zero unit with the next one as remainder; the units bracket the value; hours stay below 24 and minutes and seconds below 60 |
| Dashboard.FormatUptimeExamples | public/script.js:192-206 | 0 shows "0s", 61 s "1m 1s", 25 h "1d 1h", and −1 ms "-1s" |
| Dashboard.SaveSettings | public/script.js:41-58 | the interval range is refused first, then the timeout range; anything else, not-a-number included, is sent as entered |
| Dashboard.ClientServerAgree | public/script.js:46-58 | the page refuses only what the server refuses, with the same text unless a value is 0; what the page sends, the server accepts unless a value was not a number, which it reports as missing |
| Dashboard.AddLog | public/script.js:217-240 | the new entry is at the top, older entries follow in order, and at most 50 remain |

## Where the code and its description differ

The model follows the code in each of these cases.

- A brand-new user's first streak is 0, not 1, when the bot process runs
  in UTC. `createUser` stamps today's date, so the `updateStreak` that
  follows at once sees a day difference of 0 and keeps the initial streak
  (database.js:73-80, 168-185). In other time zones the stamp, a UTC
  `datetime('now')` string that `new Date` reads as local time, can fall on
  the previous or the next local day. The difference is then 1 or −1, and
  the first streak is 1.
- A task that throws skips the 500 ms pause (bot.js:268-274). Delivery is
  not spaced after a failure.
- Leaving voice keeps the user's tracking entry (bot.js:191-235). Only the
  open stay is closed.
- Text-channel selection has no ranking among the voice channel's
  namesake, "general" and "chat". The first match in cache order wins
  (bot.js:305-309).
- The capacity check counts check-timer entries (bot.js:154). An entry
  stays after its timer has fired and until it is cleared or replaced.
  Users whose challenge is pending are therefore still counted. A check
  that gives up silently (guild, channel or member not cached,
  bot.js:291-298) leaves such an entry behind.
- The page parses each input with `parseInt`. A non-number passes both
  range checks and is sent as null. The server then answers "Missing
  required fields".
- The page refuses 0 with the range message. The server reports 0 as
  missing, because `!0` is true (public/script.js:46-58, server.js:71-73).
- In the original bot, a failed kick notice aborts the rest of the kick
  (index.js:239-247). The user has already been disconnected, but their
  check-timer entry and voice time are not updated. The current bot catches
  that failure (bot.js:416-434).

## Left out

- Discord I/O: posting, reacting, replying, deleting messages, fetching
  partial reactions and disconnecting members. Each outcome is an input
  (`CheckView`, `KickView`, the `fetched` flag).
- The 5 s and 10 s message clean-up timers are left out, since they only
  delete messages.
- Wall-clock durations are left out: the check interval, the confirmation
  timeout, the 500 ms pause and the 2 s dashboard throttle. Events are
  ordered but not timed. A timer's firing is an event that may happen at
  any point.
- Each async handler runs as one atomic step. The model does not
  interleave the awaits inside a single check or kick.
- SQLite itself is left out: SQL text, `datetime('now')`, row ids beyond a
  counter, and `getUserAchievements`' ordering by unlock time. The profile
  holds the set of achievement keys.
- JavaScript `Date` handling is left out: parsing, time zones and midnight
  arithmetic. Days and hours are integer inputs, and NIGHT_OWL reads the
  hour from its context.
- The weekly and monthly statistics (database.js:233-255) are left out.
  They are time-window SQL aggregates.
- The clock is assumed never to run backwards. A join time of 0, which
  JavaScript would treat as "no open stay", is not modelled.
- `getStats`, `getVoiceUsers`, `notifyDashboard`, `emitLog`, `start`,
  `stop` and the start/stop/restart routes depend on the client cache,
  process memory or socket broadcasting.
- `escapeHtml` and the page's DOM work are left out.
- Persistence to `settings.json` and reading it back at start-up are left
  out.
- Test mode's 0.5-minute timeout is left out, because it is fractional.
- Request bodies holding non-numeric JSON values (strings, booleans,
  fractions) are left out. A body field is either an integer or missing.
- The Telegram backup script is file and network I/O only. telegram-backup.js
  is not part of this model.
- Channels.ToLower: lower-cases ASCII letters only. JavaScript's
  `toLowerCase` folds all of Unicode. No character outside ASCII
  lower-cases to "!", "h", "e" or "r", so the same messages confirm.
- Gamification.HandleUserLeave: requires each open session to belong to a
  stored user and not to start in the future. The code would throw on a
  missing user row, or credit a negative duration.
- Store.FreshUserFirstStreakIsZero: holds only when creation and the
  streak update see the same calendar day, which is the case for a process
  running in UTC. Days are integer inputs, so the time-zone shift described
  above is not modelled.
- Presence.ApplyCheck: records a posted challenge with the corrected
  posting of "## Findings", which first cancels the pending one. Its
  invariant is not promised for the overwrite as bot.js:343-348 writes it.
- Watchdog.QueueStep: applies the check through `Presence.ApplyCheck`, so
  it keeps the invariant only with the corrected posting (bot.js:343-348).
- Watchdog.Step: dispatches drain turns to `Watchdog.QueueStep`, so its
  invariant rests on the corrected posting (bot.js:343-348).
- Watchdog.StepKeepsInv: proved for the corrected posting only.
  `Watchdog.ConfirmLeavesOrphan` shows the overwrite breaking the invariant.
- Watchdog.Run: proved for the corrected posting only. A trace with two
  queued checks for one user breaks the invariant as written.
- Legacy.TimerFires: records the challenge with the corrected posting. The
  original bot has the same overwrite (index.js:160-165), and the
  invariant is not promised for it.
- Legacy.Step: its invariant rests on the corrected posting of
  `Legacy.TimerFires` (index.js:160-165).
- Legacy.Run: proved for the corrected posting only (index.js:160-165).
- Rows that tie in a leaderboard ordering come back in an order the
  model does not fix. SQLite does not fix that order either.

## Findings

| source | as written | input that shows it | evidently intended | confidence | as-written member | corrected member |
|---|---|---|---|---|---|---|
| bot.js:343-348 | posting a challenge overwrites the user's pending entry without cancelling the earlier entry's deadline timer | user joins c1; the check fires and is queued; before it is sent the user moves to c2 and the new check fires too (e.g. a 1-minute interval behind a backlog); both posts succeed; the user types "!here"; the first deadline is still armed and disconnects the user who confirmed | a new challenge supersedes the previous one, cancelling its deadline, so a confirmation always leaves no deadline | not executed | Watchdog.DuplicateChallengeKicksConfirmedUser | Watchdog.DuplicateChallengeCorrected |

For this finding:

- `Presence.PostChallengeAsWritten` records a challenge the way the code
  does.
- `Presence.PostChallenge` first cancels any pending challenge. The rest
  of the model uses `Presence.PostChallenge`, in both bots.
- The original bot records its challenge with the same overwrite
  (index.js:160-165).

=== FILE: channels.dfy ===
/** Where a presence challenge is posted, and which inbound signals count as
    a confirmation. Shared by both watchdog variants. */
module Channels {
  import opened Common

  /** A guild channel as the platform cache lists it. */
  datatype Channel = Channel(name: string, textBased: bool, thread: bool)

  predicate Postable(c: Channel)
  {
    c.textBased && !c.thread
  }

  /** A postable channel named like the voice channel, "general" or "chat";
      the three names are equally good. */
  predicate Preferred(c: Channel, voiceName: string)
  {
    Postable(c) && (c.name == voiceName || c.name == "general" || c.name == "chat")
  }

  /** Index of the first channel at or after `from` satisfying `p`. */
  function FindFrom(chs: seq<Channel>, p: Channel -> bool, from: nat): (r: Option<nat>)
    requires from <= |chs|
    ensures r.Some? ==> from <= r.value < |chs| && p(chs[r.value])
    ensures r.Some? ==> forall j :: from <= j < r.value ==> !p(chs[j])
    ensures r.None? ==> forall j :: from <= j < |chs| ==> !p(chs[j])
    decreases |chs| - from
  {
    if from == |chs| then None
    else if p(chs[from]) then Some(from)
    else FindFrom(chs, p, from + 1)
  }

  /** Array-style find: the first channel satisfying `p`, in cache order. */
  function Find(chs: seq<Channel>, p: Channel -> bool): (r: Option<nat>)
    ensures r.Some? ==> r.value < |chs| && p(chs[r.value])
    ensures r.Some? ==> forall j :: 0 <= j < r.value ==> !p(chs[j])
    ensures r.None? <==> forall j :: 0 <= j < |chs| ==> !p(chs[j])
  {
    FindFrom(chs, p, 0)
  }

  /** The first preferred channel if any; else the first postable channel. */
  function SelectTextChannel(chs: seq<Channel>, voiceName: string): (r: Option<nat>)
    ensures r.Some? ==> r.value < |chs| && Postable(chs[r.value])
    ensures r.None? <==> forall i :: 0 <= i < |chs| ==> !Postable(chs[i])
    ensures (exists i :: 0 <= i < |chs| && Preferred(chs[i], voiceName)) ==>
      && r.Some? && Preferred(chs[r.value], voiceName)
      && forall j :: 0 <= j < r.value ==> !Preferred(chs[j], voiceName)
    ensures (forall i :: 0 <= i < |chs| ==> !Preferred(chs[i], voiceName)) ==>
      r.Some? ==> forall j :: 0 <= j < r.value ==> !Postable(chs[j])
  {
    match Find(chs, c => Preferred(c, voiceName))
    case Some(i) => Some(i)
    case None =>
      var r := Find(chs, Postable);
      assert r.None? ==> forall i :: 0 <= i < |chs| ==> !Postable(chs[i]);
      r
  }

  /** There is no ranking among the three names: a "general" channel listed
      before the channel named like the voice channel wins. */
  lemma NoPreferenceAmongNames(voiceName: string)
    requires voiceName != "general"
    ensures SelectTextChannel([Channel("general", true, false), Channel(voiceName, true, false)], voiceName) == Some(0)
  {
  }

  /** Threads and non-text channels are never picked, even when named "general". */
  lemma ThreadsNeverSelected(voiceName: string)
    ensures SelectTextChannel([Channel("general", true, true), Channel("voice-text", false, false)], voiceName) == None
  {
  }

  function LowerChar(c: char): char
  {
    if 'A' <= c <= 'Z' then (c as int - 'A' as int + 'a' as int) as char else c
  }

  /** Lower-casing of ASCII letters; every other character is kept. */
  function ToLower(s: string): (r: string)
    ensures |r| == |s|
    ensures forall i :: 0 <= i < |s| ==> r[i] == LowerChar(s[i])
  {
    if s == [] then [] else [LowerChar(s[0])] + ToLower(s[1..])
  }

  const HereCommand: string := "!here"

  /** The text confirmation: the message lower-cases to exactly "!here". */
  predicate IsHereCommand(content: string)
  {
    ToLower(content) == HereCommand
  }

  /** The text confirmation accepts exactly the 16 case variants of "!here"
      and nothing longer, shorter or padded. */
  lemma HereCommandVariants(content: string)
    ensures IsHereCommand(content) <==>
      && |content| == 5
      && content[0] == '!'
      && (content[1] == 'h' || content[1] == 'H')
      && (content[2] == 'e' || content[2] == 'E')
      && (content[3] == 'r' || content[3] == 'R')
      && (content[4] == 'e' || content[4] == 'E')
  {
    var l := ToLower(content);
    if |content| == 5 {
      if content[0] == '!'
         && (content[1] == 'h' || content[1] == 'H')
         && (content[2] == 'e' || content[2] == 'E')
         && (content[3] == 'r' || content[3] == 'R')
         && (content[4] == 'e' || content[4] == 'E') {
        assert l == HereCommand;
      }
    }
  }

  const ConfirmEmoji: string := "✅"

  /** The reaction confirmation: the check mark on the outstanding challenge message. */
  predicate IsConfirmingReaction(challenge: MessageId, messageId: MessageId, emoji: string)
  {
    messageId == challenge && emoji == ConfirmEmoji
  }
}

=== FILE: common.dfy ===
/** Small shared vocabulary: optional values and the identifiers the chat
    platform hands out (users, voice/text channels, guilds, messages). */
module Common {

  /** A value that may be absent (JavaScript `null` / `undefined`). */
  datatype Option<T> = None | Some(value: T)

  type UserId = string
  type ChannelId = string
  type GuildId = string
  type MessageId = string

  function Min(a: int, b: int): int
  {
    if a <= b then a else b
  }
}

=== FILE: dashboard.dfy ===
/** The dashboard page's pure parts: duration formatting, the client-side
    settings check, and the capped activity log. */
module Dashboard {
  import opened Common
  import Server
  import Settings

  /** Decimal digit for 0..9. */
  function DigitChar(d: nat): (c: char)
    requires d < 10
    ensures '0' <= c <= '9' && c as int - '0' as int == d
  {
    ('0' as int + d) as char
  }

  predicate IsDigits(s: string)
  {
    forall i :: 0 <= i < |s| ==> '0' <= s[i] <= '9'
  }

  /** Decimal rendering of a natural number, as a template literal shows it:
      digits only, no leading zero. */
  function NatToString(n: nat): (s: string)
    ensures |s| >= 1 && IsDigits(s)
    ensures |s| > 1 ==> s[0] != '0'
    ensures n < 10 <==> |s| == 1
    decreases n
  {
    if n < 10 then [DigitChar(n)] else NatToString(n / 10) + [DigitChar(n % 10)]
  }

  /** The number a digit string denotes. */
  function DecimalValue(s: string): nat
    requires IsDigits(s)
  {
    if s == [] then 0 else DecimalValue(s[..|s| - 1]) * 10 + (s[|s| - 1] as int - '0' as int)
  }

  /** Reading the rendering back gives the number. */
  lemma {:induction false} DecimalRoundTrip(n: nat)
    ensures DecimalValue(NatToString(n)) == n
    decreases n
  {
    if n >= 10 {
      DecimalRoundTrip(n / 10);
      var s := NatToString(n);
      assert s[..|s| - 1] == NatToString(n / 10);
    }
  }

  /** Decimal rendering of an integer, with a minus sign when negative. */
  function IntToString(i: int): (s: string)
    ensures i >= 0 ==> s == NatToString(i)
    ensures i < 0 ==> |s| >= 2 && s[0] == '-' && s[1..] == NatToString(-i)
  {
    if i < 0 then "-" + NatToString(-i) else NatToString(i)
  }

  /** A digit string with an optional leading minus sign. */
  predicate IsSignedDigits(s: string)
  {
    if |s| > 0 && s[0] == '-' then IsDigits(s[1..]) else IsDigits(s)
  }

  /** The integer a signed digit string denotes. */
  function SignedValue(s: string): int
    requires IsSignedDigits(s)
  {
    if |s| > 0 && s[0] == '-' then -(DecimalValue(s[1..]) as int) else DecimalValue(s)
  }

  /** Reading a signed rendering back gives the integer, so distinct
      integers are shown differently. */
  lemma IntRoundTrip(i: int, j: int)
    ensures IsSignedDigits(IntToString(i))
    ensures SignedValue(IntToString(i)) == i
    ensures IntToString(i) == IntToString(j) ==> i == j
  {
    SignedRoundTrip(i);
    SignedRoundTrip(j);
  }

  lemma SignedRoundTrip(i: int)
    ensures IsSignedDigits(IntToString(i)) && SignedValue(IntToString(i)) == i
  {
    var s := IntToString(i);
    if i < 0 {
      DecimalRoundTrip(-i);
    } else {
      DecimalRoundTrip(i);
      assert s[0] != '-';
    }
  }

  const MsPerSecond: nat := 1000
  const MsPerMinute: nat := 60 * 1000
  const MsPerHour: nat := 60 * 60 * 1000
  const MsPerDay: nat := 24 * 60 * 60 * 1000

  /** What a session-time display shows: nothing measurable, hours with
      leftover minutes, whole minutes, or whole seconds. */
  datatype TimeShown = NoTime | HoursMinutes(h: nat, m: nat) | WholeMinutes(m: nat) | WholeSeconds(s: nat)

  /** The reading of a session time (`None` for a missing value). Each
      reading's units bracket the value, and the largest non-zero unit is
      chosen. */
  function TimeReading(ms: Option<int>): (r: TimeShown)
    ensures r == NoTime <==> ms.None? || ms.value <= 0
    ensures r.HoursMinutes? <==> ms.Some? && ms.value >= MsPerHour
    ensures r.WholeMinutes? <==> ms.Some? && MsPerMinute <= ms.value < MsPerHour
    ensures r.WholeSeconds? <==> ms.Some? && 0 < ms.value < MsPerMinute
    ensures r.HoursMinutes? ==>
      r.h >= 1 && r.m < 60 && (r.h * 60 + r.m) * MsPerMinute <= ms.value < (r.h * 60 + r.m + 1) * MsPerMinute
    ensures r.WholeMinutes? ==> 1 <= r.m < 60 && r.m * MsPerMinute <= ms.value < (r.m + 1) * MsPerMinute
    ensures r.WholeSeconds? ==> r.s < 60 && r.s * MsPerSecond <= ms.value < (r.s + 1) * MsPerSecond
  {
    if ms.None? || ms.value <= 0 then NoTime
    else
      var seconds := ms.value / 1000;
      var minutes := seconds / 60;
      var hours := minutes / 60;
      if hours > 0 then HoursMinutes(hours, minutes % 60)
      else if minutes > 0 then WholeMinutes(minutes)
      else WholeSeconds(seconds)
  }

  function ShowTime(t: TimeShown): string
  {
    match t
    case NoTime => "0m"
    case HoursMinutes(h, m) => NatToString(h) + "h " + NatToString(m) + "m"
    case WholeMinutes(m) => NatToString(m) + "m"
    case WholeSeconds(s) => NatToString(s) + "s"
  }

  /** Session time as the users table shows it. */
  function FormatTime(ms: Option<int>): string
  {
    ShowTime(TimeReading(ms))
  }

  lemma FormatTimeExamples()
    ensures FormatTime(None) == "0m" && FormatTime(Some(0)) == "0m" && FormatTime(Some(-5)) == "0m"
    ensures FormatTime(Some(500)) == "0s"
    ensures FormatTime(Some(59999)) == "59s"
    ensures FormatTime(Some(60000)) == "1m"
    ensures FormatTime(Some(3660000)) == "1h 1m"
  {
    assert NatToString(59) == "59";
  }

  /** What the uptime display shows: days and hours, hours and minutes,
      minutes and seconds, or seconds (negative for a negative span). */
  datatype UptimeShown =
    | DaysHours(d: int, h: int)
    | HoursMins(h: int, m: int)
    | MinsSecs(m: int, s: int)
    | Secs(s: int)

  /** The reading of an uptime: the largest non-zero unit with the next one
      as remainder; the units bracket the value. Division rounds down, as the
      page's floor does. */
  function UptimeReading(ms: int): (r: UptimeShown)
    ensures r.DaysHours? <==> ms >= MsPerDay
    ensures r.HoursMins? <==> MsPerHour <= ms < MsPerDay
    ensures r.MinsSecs? <==> MsPerMinute <= ms < MsPerHour
    ensures r.Secs? <==> ms < MsPerMinute
    ensures r.DaysHours? ==>
      r.d >= 1 && 0 <= r.h < 24 && (r.d * 24 + r.h) * MsPerHour <= ms < (r.d * 24 + r.h + 1) * MsPerHour
    ensures r.HoursMins? ==>
      1 <= r.h < 24 && 0 <= r.m < 60 && (r.h * 60 + r.m) * MsPerMinute <= ms < (r.h * 60 + r.m + 1) * MsPerMinute
    ensures r.MinsSecs? ==>
      1 <= r.m < 60 && 0 <= r.s < 60 && (r.m * 60 + r.s) * MsPerSecond <= ms < (r.m * 60 + r.s + 1) * MsPerSecond
    ensures r.Secs? ==> r.s < 60 && r.s * MsPerSecond <= ms < (r.s + 1) * MsPerSecond
  {
    var seconds := ms / 1000;
    var minutes := seconds / 60;
    var hours := minutes / 60;
    var days := hours / 24;
    if days > 0 then DaysHours(days, hours % 24)
    else if hours > 0 then HoursMins(hours, minutes % 60)
    else if minutes > 0 then MinsSecs(minutes, seconds % 60)
    else Secs(seconds)
  }

  function ShowUptime(u: UptimeShown): string
  {
    match u
    case DaysHours(d, h) => IntToString(d) + "d " + IntToString(h) + "h"
    case HoursMins(h, m) => IntToString(h) + "h " + IntToString(m) + "m"
    case MinsSecs(m, s) => IntToString(m) + "m " + IntToString(s) + "s"
    case Secs(s) => IntToString(s) + "s"
  }

  function FormatUptime(ms: int): string
  {
    ShowUptime(UptimeReading(ms))
  }

  lemma FormatUptimeExamples()
    ensures FormatUptime(0) == "0s"
    ensures FormatUptime(61000) == "1m 1s"
    ensures FormatUptime(90000000) == "1d 1h"
    ensures FormatUptime(-1) == "-1s"
  {
  }

  /** A number input after integer parsing: a number, or not-a-number. */
  datatype Parsed = NaN | Int(n: int)

  /** How a parsed value travels in the JSON body: not-a-number becomes null. */
  function ToJson(p: Parsed): (f: Server.Field)
    ensures f.Missing? <==> p.NaN?
    ensures p.Int? ==> f == Server.Num(p.n)
  {
    match p
    case NaN => Server.Missing
    case Int(n) => Server.Num(n)
  }

  const ErrorMark: string := "❌ "

  /** The page's two refusals can be told apart. */
  lemma RefusalsDistinct()
    ensures ErrorMark + Server.AfkRange != ErrorMark + Server.TimeoutRange
  {
    assert |Server.AfkRange| == 42 && |Server.TimeoutRange| == 49;
  }

  datatype ClientResult = Refused(status: string) | Sent(afk: Server.Field, timeout: Server.Field)

  /** The page's check before saving: the interval range first, then the
      timeout range; a comparison with not-a-number is false, so NaN passes
      both checks and is sent. */
  function SaveSettings(afk: Parsed, timeout: Parsed): (r: ClientResult)
    ensures r == Refused(ErrorMark + Server.AfkRange) <==> afk.Int? && (afk.n < 1 || afk.n > 180)
    ensures r == Refused(ErrorMark + Server.TimeoutRange) <==>
      !(afk.Int? && (afk.n < 1 || afk.n > 180)) && timeout.Int? && (timeout.n < 1 || timeout.n > 10)
    ensures r.Sent? ==> r.afk == ToJson(afk) && r.timeout == ToJson(timeout)
  {
    RefusalsDistinct();
    if afk.Int? && (afk.n < 1 || afk.n > 180) then Refused(ErrorMark + Server.AfkRange)
    else if timeout.Int? && (timeout.n < 1 || timeout.n > 10) then Refused(ErrorMark + Server.TimeoutRange)
    else Sent(ToJson(afk), ToJson(timeout))
  }

  /** The page and the server agree: what the page refuses, the server would
      refuse too, with the same text unless a value is zero (the server
      reports a zero as missing); what the page sends, the server accepts
      unless a value was not a number, which it reports as missing. */
  lemma ClientServerAgree(st: Server.State, boot: Settings.Record, afk: int, timeout: int, pa: Parsed, pt: Parsed)
    ensures var r := SaveSettings(Int(afk), Int(timeout));
      var s := Server.PostSettings(st, boot, Server.Num(afk), Server.Num(timeout)).1;
      && (r.Refused? ==> s.status == 400)
      && (r.Refused? && afk != 0 && timeout != 0 ==> r.status == ErrorMark + s.message)
      && (r.Refused? && (afk == 0 || timeout == 0) ==> s.message == Server.MissingFields)
      && (r.Sent? ==> s.status == 200)
    ensures SaveSettings(pa, pt).Sent? ==>
      var s := Server.PostSettings(st, boot, ToJson(pa), ToJson(pt)).1;
      (s.status == 200 <==> pa.Int? && pt.Int?)
      && (s.status != 200 ==> s.message == Server.MissingFields)
  {
    RefusalsDistinct();
    Server.MessagesDistinct();
  }

  datatype LogEntry = LogEntry(kind: string, time: string, message: string)

  const LogCap: nat := 50

  /** Adds an entry at the top of the activity log, then drops entries from
      the bottom while there are more than `LogCap`. */
  method AddLog(log: seq<LogEntry>, e: LogEntry) returns (r: seq<LogEntry>)
    ensures |r| == Min(LogCap, |log| + 1)
    ensures r[0] == e
    ensures forall i :: 1 <= i < |r| ==> r[i] == log[i - 1]
  {
    r := [e] + log;
    while |r| > LogCap
      invariant |r| >= Min(LogCap, |log| + 1)
      invariant r == ([e] + log)[..|r|]
      decreases |r|
    {
      r := r[..|r| - 1];
    }
  }
}

=== FILE: delivery.dfy ===
/** The outbound message queue: a FIFO of send tasks drained by a single
    worker, guarded by a busy flag, pausing after every task that completed
    normally (the pause length itself is wall-clock and not modelled). */
module Delivery {
  import opened Common

  datatype Queue<T> = Queue(items: seq<T>, busy: bool)

  function Enqueue<T>(q: Queue<T>, t: T): (r: Queue<T>)
    ensures r.items == q.items + [t] && r.busy == q.busy
  {
    q.(items := q.items + [t])
  }

  /** Entry of the drain: it starts only when none is running and there is work. */
  function StartDrain<T>(q: Queue<T>): (r: Queue<T>)
    ensures r.items == q.items
    ensures r.busy <==> q.busy || q.items != []
  {
    if q.busy || q.items == [] then q else q.(busy := true)
  }

  /** One turn of the drain loop: hands out the head task, or ends the drain
      (clearing the flag) when the queue is empty. */
  function NextTask<T>(q: Queue<T>): (r: (Queue<T>, Option<T>))
    requires q.busy
    ensures r.1.None? <==> q.items == []
    ensures r.1.None? ==> r.0 == Queue([], false)
    ensures r.1.Some? ==> [r.1.value] + r.0.items == q.items && r.0.busy
  {
    if q.items == [] then (Queue([], false), None)
    else (Queue(q.items[1..], true), Some(q.items[0]))
  }

  /** First in, first out: a task added to a running drain is handed out only
      after everything already waiting, and adding commutes with taking. */
  lemma EnqueueThenNext<T>(q: Queue<T>, t: T)
    requires q.busy
    ensures q.items == [] ==> NextTask(Enqueue(q, t)) == (Queue([], true), Some(t))
    ensures q.items != [] ==>
      && NextTask(Enqueue(q, t)).1 == NextTask(q).1 == Some(q.items[0])
      && NextTask(Enqueue(q, t)).0 == Enqueue(NextTask(q).0, t)
  {
    if q.items != [] {
      assert (q.items + [t])[1..] == q.items[1..] + [t];
    }
  }

  /** Number of tasks that completed without throwing, i.e. pauses taken. */
  function Pauses<T>(tasks: seq<T>, throws: T -> bool): (n: nat)
    ensures n <= |tasks|
  {
    if tasks == [] then 0
    else Pauses(tasks[..|tasks| - 1], throws) + (if throws(tasks[|tasks| - 1]) then 0 else 1)
  }

  /** When no task throws, every task is followed by a pause. */
  lemma {:induction false} PausesWithoutFailures<T>(tasks: seq<T>, throws: T -> bool)
    requires forall i :: 0 <= i < |tasks| ==> !throws(tasks[i])
    ensures Pauses(tasks, throws) == |tasks|
  {
    if tasks != [] {
      PausesWithoutFailures(tasks[..|tasks| - 1], throws);
    }
  }

  /** processMessageQueue run to completion with no other event in between:
      a call while a drain is running, or with nothing queued, does nothing;
      otherwise every task runs exactly once in enqueue order (a throwing
      task does not stop the later ones, it only skips its pause), and the
      queue ends empty with the flag cleared. */
  method ProcessMessageQueue<T>(q: Queue<T>, throws: T -> bool) returns (ran: seq<T>, pauses: nat, r: Queue<T>)
    ensures q.busy || q.items == [] ==> ran == [] && pauses == 0 && r == q
    ensures !q.busy && q.items != [] ==>
      && ran == q.items
      && pauses == Pauses(q.items, throws)
      && r == Queue([], false)
  {
    if q.busy || q.items == [] {
      return [], 0, q;
    }
    var cur := StartDrain(q);
    ran, pauses := [], 0;
    while cur.items != []
      invariant cur.busy
      invariant ran + cur.items == q.items
      invariant pauses == Pauses(ran, throws)
      decreases |cur.items|
    {
      var (next, task) := NextTask(cur);
      var t := task.value;
      assert (ran + [t])[..|ran|] == ran;
      ran := ran + [t];
      if !throws(t) {
        pauses := pauses + 1;
      }
      cur := next;
    }
    assert ran == q.items;
    r := NextTask(cur).0;
  }
}

=== FILE: gamification.dfy ===
/** The progression engine: XP per session with a streak multiplier,
    achievement predicates and idempotent unlocking, role rewards, the
    profile view, and the per-user active-session bookkeeping that join and
    leave events drive. */
module Gamification {
  import opened Common
  import opened Leveling
  import opened Store

  /** The achievement table, in its declaration order. */
  datatype Kind = NightOwl | Marathon | Dedicated | Veteran | Master | Legend | Century

  const AllKinds: seq<Kind> := [NightOwl, Marathon, Dedicated, Veteran, Master, Legend, Century]

  /** The key under which an unlock is stored. */
  function Key(k: Kind): string
  {
    match k
    case NightOwl => "NIGHT_OWL"
    case Marathon => "MARATHON"
    case Dedicated => "DEDICATED"
    case Veteran => "VETERAN"
    case Master => "MASTER"
    case Legend => "LEGEND"
    case Century => "CENTURY"
  }

  function Name(k: Kind): string
  {
    match k
    case NightOwl => "Night Owl"
    case Marathon => "Marathon"
    case Dedicated => "Dedicated"
    case Veteran => "Veteran"
    case Master => "Master"
    case Legend => "Legend"
    case Century => "Century"
  }

  function Description(k: Kind): string
  {
    match k
    case NightOwl => "Active between 12 AM - 6 AM"
    case Marathon => "Stay in voice for 6+ hours continuously"
    case Dedicated => "Maintain a 7-day streak"
    case Veteran => "Reach level 10"
    case Master => "Reach level 25"
    case Legend => "Reach level 50"
    case Century => "Reach level 100"
  }

  lemma AllKindsComplete()
    ensures forall k: Kind :: k in AllKinds
  {
    forall k: Kind ensures k in AllKinds {
      match k
      case NightOwl => assert AllKinds[0] == k;
      case Marathon => assert AllKinds[1] == k;
      case Dedicated => assert AllKinds[2] == k;
      case Veteran => assert AllKinds[3] == k;
      case Master => assert AllKinds[4] == k;
      case Legend => assert AllKinds[5] == k;
      case Century => assert AllKinds[6] == k;
    }
  }

  lemma AllKindsDistinct(i: nat, j: nat)
    requires i < j < |AllKinds|
    ensures AllKinds[i] != AllKinds[j]
  {
  }

  lemma KeyInjective(a: Kind, b: Kind)
    ensures Key(a) == Key(b) ==> a == b
  {
  }

  /** What an achievement predicate sees besides the user record: the length
      of the session that just ended (ms), the new total time (minutes) and
      the wall-clock hour at evaluation time. */
  datatype Context = Context(sessionDuration: int, totalTime: nat, hour: int)

  const MarathonMs: int := 6 * 60 * 60 * 1000

  predicate Check(k: Kind, u: User, ctx: Context)
  {
    match k
    case NightOwl => 0 <= ctx.hour < 6
    case Marathon => ctx.sessionDuration >= MarathonMs
    case Dedicated => u.streak >= 7
    case Veteran => u.level >= 10
    case Master => u.level >= 25
    case Legend => u.level >= 50
    case Century => u.level >= 100
  }

  /** For a record whose level agrees with the formula, the level
      achievements are XP thresholds: 8100, 57600, 240100 and 980100 XP. */
  lemma LevelAchievementThresholds(u: User, ctx: Context)
    requires LevelConsistent(u)
    ensures Check(Veteran, u, ctx) <==> u.xp >= 8100
    ensures Check(Master, u, ctx) <==> u.xp >= 57600
    ensures Check(Legend, u, ctx) <==> u.xp >= 240100
    ensures Check(Century, u, ctx) <==> u.xp >= 980100
  {
    LevelAtLeast(u.xp, 10);
    assert XPForNextLevel(9) == 8100;
    LevelAtLeast(u.xp, 25);
    assert XPForNextLevel(24) == 57600;
    LevelAtLeast(u.xp, 50);
    assert XPForNextLevel(49) == 240100;
    LevelAtLeast(u.xp, 100);
    assert XPForNextLevel(99) == 980100;
  }

  /** The streak multiplier in quarters: 8/4 from 30 days, 6/4 from 14,
      5/4 from 7, else 4/4. */
  function MultiplierQuarters(streak: int): (q: nat)
    ensures 4 <= q <= 8
  {
    if streak >= 30 then 8
    else if streak >= 14 then 6
    else if streak >= 7 then 5
    else 4
  }

  /** A longer streak never lowers the multiplier. */
  lemma MultiplierMonotone(a: int, b: int)
    requires a <= b
    ensures MultiplierQuarters(a) <= MultiplierQuarters(b)
  {
  }

  /** Whole minutes in a duration given in milliseconds. */
  function DurationMinutes(ms: nat): nat
  {
    ms / 60000
  }

  /** XP earned for a session: the session's minutes times the multiplier,
      rounded down. At least one XP per minute and at most two. */
  function SessionXP(minutes: nat, streak: int): (xp: nat)
    ensures 4 * xp <= minutes * MultiplierQuarters(streak) < 4 * xp + 4
    ensures minutes <= xp <= 2 * minutes
  {
    minutes * MultiplierQuarters(streak) / 4
  }

  /** An empty session earns nothing; a 60-minute session on a 7-day streak
      earns 75 XP. */
  lemma SessionXPExamples(streak: int)
    ensures SessionXP(0, streak) == 0
    ensures SessionXP(60, 7) == 75
  {
  }

  /** Walks `kinds` in order: held kinds are skipped, the others whose
      predicate holds are unlocked and reported. `u` is the record read once
      before the walk. */
  function CheckKinds(db: Db, id: UserId, u: User, ctx: Context, kinds: seq<Kind>): (r: (Db, seq<Kind>))
    ensures r.0.users == db.users && r.0.sessions == db.sessions
    ensures r.0.achievements ==
      db.achievements + set k | k in kinds && Check(k, u, ctx) :: (id, Key(k))
    ensures forall k :: k in r.1 <==>
      k in kinds && Check(k, u, ctx) && !HasAchievement(db, id, Key(k))
    decreases |kinds|
  {
    if kinds == [] then (db, [])
    else
      var k := kinds[0];
      assert kinds == [k] + kinds[1..];
      if HasAchievement(db, id, Key(k)) then
        var r := CheckKinds(db, id, u, ctx, kinds[1..]);
        assert forall j :: j in kinds ==> j == k || j in kinds[1..];
        r
      else if Check(k, u, ctx) then
        var (db1, wasUnlocked) := UnlockAchievement(db, id, Key(k));
        var (db2, rest) := CheckKinds(db1, id, u, ctx, kinds[1..]);
        forall j ensures HasAchievement(db1, id, Key(j)) <==> HasAchievement(db, id, Key(j)) || j == k {
          KeyInjective(j, k);
        }
        (db2, if wasUnlocked then [k] + rest else rest)
      else
        var r := CheckKinds(db, id, u, ctx, kinds[1..]);
        r
  }

  /** checkAchievements: evaluates the whole table against the user's
      current record; reports exactly the kinds not held before whose
      predicate holds, and afterwards every kind whose predicate holds is held. */
  function CheckAchievements(db: Db, id: UserId, ctx: Context): (r: (Db, seq<Kind>))
    requires id in db.users
    ensures r.0.users == db.users && r.0.sessions == db.sessions
    ensures forall k :: k in r.1 <==>
      Check(k, db.users[id], ctx) && !HasAchievement(db, id, Key(k))
    ensures forall k :: Check(k, db.users[id], ctx) ==> HasAchievement(r.0, id, Key(k))
    ensures forall p :: p in db.achievements ==> p in r.0.achievements
  {
    AllKindsComplete();
    CheckKinds(db, id, db.users[id], ctx, AllKinds)
  }

  /** No kind is ever reported twice: whatever a first check reports is held
      afterwards, so a later check, with any context, never reports it again. */
  lemma NoKindReportedTwice(db: Db, id: UserId, ctx1: Context, ctx2: Context)
    requires id in db.users
    ensures var (db1, r1) := CheckAchievements(db, id, ctx1);
            forall k :: k in r1 ==> k !in CheckAchievements(db1, id, ctx2).1
  {
    var (db1, r1) := CheckAchievements(db, id, ctx1);
    var r2 := CheckAchievements(db1, id, ctx2).1;
    forall k | k in r1
      ensures k !in r2
    {
      assert HasAchievement(db1, id, Key(k));
    }
  }

  /** Repeating a check with the same context reports nothing. */
  lemma RecheckReportsNothing(db: Db, id: UserId, ctx: Context)
    requires id in db.users
    ensures var db1 := CheckAchievements(db, id, ctx).0;
            forall k :: k !in CheckAchievements(db1, id, ctx).1
  {
    var db1 := CheckAchievements(db, id, ctx).0;
    var r := CheckAchievements(db1, id, ctx).1;
    forall k ensures k !in r {
      if Check(k, db.users[id], ctx) {
        assert HasAchievement(db1, id, Key(k));
      }
    }
  }

  /** Role rewards are an exact-match lookup on the new level. */
  const RoleRewards: map<int, string> :=
    map[5 := "Bronze Member", 10 := "Silver Member", 25 := "Gold Member",
        50 := "Platinum Member", 100 := "Diamond Legend"]

  function CheckRoleReward(level: int): (r: Option<string>)
    ensures r.Some? <==> level == 5 || level == 10 || level == 25 || level == 50 || level == 100
    ensures r.Some? ==> |r.value| > 0
  {
    if level in RoleRewards then Some(RoleRewards[level]) else None
  }

  /** Each reward belongs to one milestone only, so a granted role tells
      which level was reached. */
  lemma RoleRewardIdentifiesLevel(a: int, b: int)
    requires CheckRoleReward(a).Some? && CheckRoleReward(a) == CheckRoleReward(b)
    ensures a == b
  {
    assert "Bronze Member"[0] != "Silver Member"[0];
  }

  /** A level-up that jumps over a milestone without landing on one yields
      no reward: from level 4 straight to level 6 there is none. */
  lemma RoleRewardSkippedMilestone()
    ensures CheckRoleReward(6).None? && CheckRoleReward(5).Some?
  {
  }

  /** The in-memory map of open sessions: user -> (session row id, join time). */
  datatype ActiveSession = ActiveSession(sessionId: nat, joinTime: int)

  datatype Engine = Engine(db: Db, active: map<UserId, ActiveSession>)

  /** Every open session belongs to a stored user and started no later than `now`. */
  predicate Valid(e: Engine, now: int)
  {
    forall id :: id in e.active ==> id in e.db.users && e.active[id].joinTime <= now
  }

  lemma ValidLater(e: Engine, now: int, later: int)
    requires Valid(e, now) && now <= later
    ensures Valid(e, later)
  {
  }

  datatype JoinResult = JoinResult(user: User, newStreak: nat)

  /** handleUserJoin: creates the user only when absent, applies the streak
      rule, opens a session row and replaces any open session of the user by
      a fresh one. */
  function HandleUserJoin(e: Engine, id: UserId, name: string, now: int, today: int): (r: (Engine, JoinResult))
    ensures id in r.0.db.users
    ensures r.0.active == e.active[id := ActiveSession(|e.db.sessions| + 1, now)]
    ensures r.0.db.sessions == e.db.sessions + [Session(id, now, None, 0, 0)]
    ensures r.0.db.achievements == e.db.achievements
    ensures id in e.db.users ==>
      && r.1.user == e.db.users[id]
      && r.0.db.users[id] == UpdateStreak(e.db, id, today).0.users[id]
    ensures id !in e.db.users ==>
      && r.1.user == User(name, 0, 0, 1, 0, Some(today))
      && r.0.db.users[id] == User(name, 0, 0, 1, 0, Some(today))
      && r.1.newStreak == 0
    ensures r.1.newStreak == r.0.db.users[id].streak
    ensures r.0.db.users.Keys == e.db.users.Keys + {id}
    ensures forall v :: v in e.db.users && v != id ==> r.0.db.users[v] == e.db.users[v]
    ensures Valid(e, now) ==> Valid(r.0, now)
  {
    var (db1, user) := if id in e.db.users then (e.db, e.db.users[id]) else CreateUser(e.db, id, name, today);
    var (db2, newStreak) := UpdateStreak(db1, id, today);
    var (db3, sessionId) := StartSession(db2, id, name, now, today);
    (Engine(db3, e.active[id := ActiveSession(sessionId, now)]), JoinResult(user, newStreak))
  }

  lemma HandleUserJoinValid(e: Engine, id: UserId, name: string, now: int, today: int)
    requires Valid(e, now)
    ensures Valid(HandleUserJoin(e, id, name, now, today).0, now)
  {
  }

  datatype LeaveResult = LeaveResult(
    duration: nat,
    xpEarned: nat,
    leveledUp: bool,
    newLevel: nat,
    unlocked: seq<Kind>,
    multiplierQuarters: nat)

  /** handleUserLeave: with no open session, nothing happens. Otherwise the
      session's whole minutes are added to the total time, the XP they earn
      under the pre-leave streak is added with a fresh level, the session row
      is closed, achievements are checked against the updated record, and the
      open session is dropped. */
  function HandleUserLeave(e: Engine, id: UserId, now: int, hour: int): (r: (Engine, Option<LeaveResult>))
    requires Valid(e, now)
    ensures r.1.None? <==> id !in e.active
    ensures id !in e.active ==> r.0 == e
    ensures id in e.active ==>
      var s := e.active[id];
      var u := e.db.users[id];
      var lr := r.1.value;
      && id in r.0.db.users
      && var u' := r.0.db.users[id];
      && lr.duration == DurationMinutes(now - s.joinTime)
      && lr.multiplierQuarters == MultiplierQuarters(u.streak)
      && lr.xpEarned == SessionXP(lr.duration, u.streak)
      && u'.totalTime == u.totalTime + lr.duration
      && u'.xp == u.xp + lr.xpEarned
      && u'.level == lr.newLevel && LevelConsistent(u')
      && (lr.leveledUp <==> lr.newLevel > u.level)
      && u'.streak == u.streak && u'.lastActive == u.lastActive && u'.username == u.username
      && r.0.active == e.active - {id}
      && (forall k :: k in lr.unlocked <==>
            Check(k, u', Context(now - s.joinTime, u'.totalTime, hour))
            && !HasAchievement(e.db, id, Key(k)))
    ensures r.0.db.users.Keys == e.db.users.Keys
    ensures forall v :: v in e.db.users && v != id ==> r.0.db.users[v] == e.db.users[v]
    ensures forall p :: p in e.db.achievements ==> p in r.0.db.achievements
    ensures id in e.active ==>
      r.0.db.sessions == EndSession(e.db, e.active[id].sessionId, r.1.value.duration, r.1.value.xpEarned, now).sessions
    ensures id in e.active ==>
      var u' := r.0.db.users[id];
      forall k :: Check(k, u', Context(now - e.active[id].joinTime, u'.totalTime, hour)) ==> HasAchievement(r.0.db, id, Key(k))
    ensures Valid(r.0, now)
  {
    if id !in e.active then (e, None)
    else
      var s := e.active[id];
      var duration: nat := now - s.joinTime;
      var minutes := DurationMinutes(duration);
      var u := e.db.users[id];
      var q := MultiplierQuarters(u.streak);
      var xp := SessionXP(minutes, u.streak);
      var newTotal := u.totalTime + minutes;
      var db1 := SetTotalTime(e.db, id, newTotal);
      var (db2, xpResult) := AddXP(db1, id, xp);
      AddXPLevelUp(db1, id, xp);
      var db3 := EndSession(db2, s.sessionId, minutes, xp, now);
      var (db4, unlocked) := CheckAchievements(db3, id, Context(duration, newTotal, hour));
      var x := xpResult.value;
      (Engine(db4, e.active - {id}),
       Some(LeaveResult(minutes, xp, x.leveledUp, x.newLevel, unlocked, q)))
  }

  lemma HandleUserLeaveValid(e: Engine, id: UserId, now: int, hour: int)
    requires Valid(e, now)
    ensures Valid(HandleUserLeave(e, id, now, hour).0, now)
  {
  }

  /** Unlocks persist across sessions: an achievement reported by one leave
      is never reported again by a later leave, after the user has rejoined. */
  lemma LaterLeaveReportsNoRepeat(e: Engine, id: UserId, name: string, t1: int, h1: int, t2: int, today: int, t3: int, h3: int)
    requires Valid(e, t1) && id in e.active && t1 <= t2 <= t3
    ensures var (e1, r1) := HandleUserLeave(e, id, t1, h1);
      var e2 := HandleUserJoin(e1, id, name, t2, today).0;
      var r3 := HandleUserLeave(e2, id, t3, h3).1;
      forall k :: k in r1.value.unlocked ==> k !in r3.value.unlocked
  {
    var (e1, r1) := HandleUserLeave(e, id, t1, h1);
    var e2 := HandleUserJoin(e1, id, name, t2, today).0;
    var r3 := HandleUserLeave(e2, id, t3, h3).1;
    forall k | k in r1.value.unlocked
      ensures k !in r3.value.unlocked
    {
      assert HasAchievement(e1.db, id, Key(k));
      assert HasAchievement(e2.db, id, Key(k));
    }
  }

  /** A zero-length session earns no XP and adds no time. */
  lemma ZeroLengthSession(e: Engine, id: UserId, now: int, hour: int)
    requires Valid(e, now) && id in e.active && e.active[id].joinTime == now
    ensures var r := HandleUserLeave(e, id, now, hour);
            && r.1.value.xpEarned == 0 && r.1.value.duration == 0
            && r.0.db.users[id].totalTime == e.db.users[id].totalTime
            && r.0.db.users[id].xp == e.db.users[id].xp
  {
  }

  /** The profile view: level, XP, the next threshold, progress into the
      current level, totals and the held achievement keys. */
  datatype Profile = Profile(
    userId: UserId,
    username: string,
    level: nat,
    xp: nat,
    xpForNextLevel: int,
    xpProgress: int,
    totalTime: nat,
    currentStreak: nat,
    achievements: set<string>)

  function GetUserProfile(db: Db, id: UserId): (r: Option<Profile>)
    ensures r.None? <==> id !in db.users
    ensures r.Some? ==>
      var u := db.users[id];
      && r.value.level == u.level && r.value.xp == u.xp
      && r.value.xpForNextLevel == XPForNextLevel(u.level)
      && r.value.xpProgress + XPForNextLevel(u.level - 1) == u.xp
      && (forall a :: a in r.value.achievements <==> HasAchievement(db, id, a))
  {
    if id !in db.users then None
    else
      var u := db.users[id];
      Some(Profile(id, u.username, u.level, u.xp, XPForNextLevel(u.level),
                   u.xp - (u.level - 1) * (u.level - 1) * 100,
                   u.totalTime, u.streak,
                   set p | p in db.achievements && p.0 == id :: p.1))
  }

  /** For a record whose level agrees with the formula, the progress lies
      inside the current level's band: at least 0 and below the band's width. */
  lemma ProfileProgressInBand(db: Db, id: UserId)
    requires id in db.users && LevelConsistent(db.users[id])
    ensures var p := GetUserProfile(db, id).value;
            0 <= p.xpProgress < p.xpForNextLevel - XPForNextLevel(p.level - 1)
  {
    var u := db.users[id];
    assert (u.level - 1) * (u.level - 1) * 100 <= u.xp < u.level * u.level * 100;
  }
}

=== FILE: leaderboard.dfy ===
/** The leaderboard queries of the progression store, modelled as a sort of
    the users table followed by LIMIT. The table is given as a sequence of
    rows in scan order; rows that tie on the sort key may come back in any
    order, so the contracts are relational rather than naming one order. */
module Leaderboard {
  import opened Common
  import opened Store

  datatype Row = Row(userId: UserId, user: User)

  /** The three ORDER BY clauses: total time, level then XP, current streak;
      all descending. */
  datatype Ranking = ByTime | ByLevel | ByStreak

  /** `a` may be listed before `b` under ranking `o`. */
  predicate RanksAtLeast(o: Ranking, a: User, b: User)
  {
    match o
    case ByTime => a.totalTime >= b.totalTime
    case ByLevel => a.level > b.level || (a.level == b.level && a.xp >= b.xp)
    case ByStreak => a.streak >= b.streak
  }

  predicate SortedBy(o: Ranking, rows: seq<Row>)
  {
    forall i, j :: 0 <= i < j < |rows| ==> RanksAtLeast(o, rows[i].user, rows[j].user)
  }

  lemma RanksTransitive(o: Ranking, a: User, b: User, c: User)
    requires RanksAtLeast(o, a, b) && RanksAtLeast(o, b, c)
    ensures RanksAtLeast(o, a, c)
  {
  }

  /** Rankings are total: of two rows, one may always go first. */
  lemma RanksTotal(o: Ranking, a: User, b: User)
    ensures RanksAtLeast(o, a, b) || RanksAtLeast(o, b, a)
  {
  }

  /** A row ranking at least the head of a sorted sequence may lead it. */
  lemma LeadKeepsSorted(o: Ranking, r: Row, rows: seq<Row>)
    requires SortedBy(o, rows) && rows != [] && RanksAtLeast(o, r.user, rows[0].user)
    ensures SortedBy(o, [r] + rows)
  {
    forall j | 0 < j < |rows|
      ensures RanksAtLeast(o, r.user, rows[j].user)
    {
      RanksTransitive(o, r.user, rows[0].user, rows[j].user);
    }
  }

  /** A head that ranks at least every row of a sorted permutation of
      `rest + [r]` may lead it. */
  lemma HeadKeepsSorted(o: Ranking, head: Row, r: Row, rest: seq<Row>, tail: seq<Row>)
    requires SortedBy(o, tail) && multiset(tail) == multiset(rest) + multiset{r}
    requires RanksAtLeast(o, head.user, r.user)
    requires forall j :: 0 <= j < |rest| ==> RanksAtLeast(o, head.user, rest[j].user)
    ensures SortedBy(o, [head] + tail)
  {
    forall k | 0 <= k < |tail|
      ensures RanksAtLeast(o, head.user, tail[k].user)
    {
      assert tail[k] in multiset(tail);
      if tail[k] != r {
        assert tail[k] in multiset(rest);
        var j :| 0 <= j < |rest| && rest[j] == tail[k];
      }
    }
  }

  /** Inserts one row into a sorted sequence, keeping it sorted. */
  function Insert(o: Ranking, r: Row, rows: seq<Row>): (res: seq<Row>)
    requires SortedBy(o, rows)
    ensures SortedBy(o, res)
    ensures multiset(res) == multiset(rows) + multiset{r}
    ensures |res| == |rows| + 1
  {
    if rows == [] then [r]
    else if RanksAtLeast(o, r.user, rows[0].user) then
      LeadKeepsSorted(o, r, rows);
      [r] + rows
    else
      var head := rows[0];
      var tail := Insert(o, r, rows[1..]);
      assert rows == [head] + rows[1..];
      RanksTotal(o, r.user, head.user);
      HeadKeepsSorted(o, head, r, rows[1..], tail);
      [head] + tail
  }

  function SortBy(o: Ranking, rows: seq<Row>): (res: seq<Row>)
    ensures SortedBy(o, res)
    ensures multiset(res) == multiset(rows)
    ensures |res| == |rows|
  {
    if rows == [] then []
    else
      assert rows == [rows[0]] + rows[1..];
      Insert(o, rows[0], SortBy(o, rows[1..]))
  }

  /** In a sorted sequence every row of a prefix ranks at least as high as
      every row after it. */
  lemma PrefixDominates(o: Ranking, sorted: seq<Row>, k: nat)
    requires SortedBy(o, sorted) && k <= |sorted|
    ensures forall x, y :: x in sorted[..k] && y in multiset(sorted[k..]) ==>
              RanksAtLeast(o, x.user, y.user)
  {
    forall x, y | x in sorted[..k] && y in multiset(sorted[k..])
      ensures RanksAtLeast(o, x.user, y.user)
    {
      var i :| 0 <= i < k && sorted[..k][i] == x;
      assert y in sorted[k..];
      var j :| 0 <= j < |sorted| - k && sorted[k..][j] == y;
      assert sorted[i] == x && sorted[k + j] == y;
    }
  }

  /** A prefix and the rest make up the whole multiset. */
  lemma PrefixSplit(s: seq<Row>, k: nat)
    requires k <= |s|
    ensures multiset(s) == multiset(s[..k]) + multiset(s[k..])
    ensures multiset(s) - multiset(s[..k]) == multiset(s[k..])
  {
    assert s == s[..k] + s[k..];
  }

  /** ORDER BY ... LIMIT: at most `limit` rows, sorted, drawn from the table,
      and every row left out ranks no higher than every row returned. */
  function TopBy(o: Ranking, rows: seq<Row>, limit: nat): (res: seq<Row>)
    ensures |res| == Min(limit, |rows|)
    ensures SortedBy(o, res)
    ensures multiset(res) <= multiset(rows)
    ensures forall x, y :: x in res && y in multiset(rows) - multiset(res) ==>
              RanksAtLeast(o, x.user, y.user)
  {
    var sorted := SortBy(o, rows);
    var k := Min(limit, |rows|);
    PrefixSplit(sorted, k);
    PrefixDominates(o, sorted, k);
    sorted[..k]
  }

  /** getTopByTime: by total time, descending. */
  function TopByTime(rows: seq<Row>, limit: nat): (res: seq<Row>)
    ensures |res| == Min(limit, |rows|)
    ensures forall i, j :: 0 <= i < j < |res| ==> res[i].user.totalTime >= res[j].user.totalTime
    ensures multiset(res) <= multiset(rows)
    ensures forall x, y :: x in res && y in multiset(rows) - multiset(res) ==>
              x.user.totalTime >= y.user.totalTime
  {
    TopBy(ByTime, rows, limit)
  }

  /** getTopByLevel: by level, ties broken by XP, both descending. */
  function TopByLevel(rows: seq<Row>, limit: nat): (res: seq<Row>)
    ensures |res| == Min(limit, |rows|)
    ensures forall i, j :: 0 <= i < j < |res| ==>
              res[i].user.level > res[j].user.level
              || (res[i].user.level == res[j].user.level && res[i].user.xp >= res[j].user.xp)
    ensures multiset(res) <= multiset(rows)
    ensures forall x, y :: x in res && y in multiset(rows) - multiset(res) ==>
              x.user.level > y.user.level || (x.user.level == y.user.level && x.user.xp >= y.user.xp)
  {
    TopBy(ByLevel, rows, limit)
  }

  /** getTopByStreak: by current streak, descending. */
  function TopByStreak(rows: seq<Row>, limit: nat): (res: seq<Row>)
    ensures |res| == Min(limit, |rows|)
    ensures forall i, j :: 0 <= i < j < |res| ==> res[i].user.streak >= res[j].user.streak
    ensures multiset(res) <= multiset(rows)
    ensures forall x, y :: x in res && y in multiset(rows) - multiset(res) ==>
              x.user.streak >= y.user.streak
  {
    TopBy(ByStreak, rows, limit)
  }
}

=== FILE: legacy.dfy ===
/** The original single-file bot: the same watchdog without the XP engine,
    capacity limits or delivery queue. A check is sent directly when its
    timer fires, and a failed kick notice aborts the rest of the kick. */
module Legacy {
  import opened Common
  import opened Channels
  import opened Presence

  /** Fixed intervals, in ms: 30 minutes between checks, 2 minutes to answer. */
  const CheckInterval: nat := 30 * 60 * 1000
  const ConfirmationTimeout: nat := 2 * 60 * 1000

  /** A user arrives in voice: the stay starts now and a live check timer is
      armed; there is no admission control. */
  function HandleJoin(w: Watch, u: UserId, ch: ChannelId, g: GuildId, now: int): (r: Watch)
    ensures u in r.timers && r.timers[u] == CheckTimer(ch, g, true)
    ensures forall v :: v != u ==> (v in r.timers <==> v in w.timers)
    ensures r.timers == w.timers[u := CheckTimer(ch, g, true)]
    ensures u in r.tracking && r.tracking[u].joinTime == Some(now)
    ensures r.tracking[u].totalTime == (if u in w.tracking then w.tracking[u].totalTime else 0)
    ensures r.pending == w.pending && r.deadlines == w.deadlines
    ensures Inv(w) ==> Inv(r)
  {
    StartTimer(Arrive(w, u, now), u, ch, g)
  }

  /** A user leaves voice: the open stay is banked and the check timer and
      any pending challenge are cancelled. */
  function HandleLeave(w: Watch, u: UserId, now: int): (r: Watch)
    ensures u !in r.timers && u !in r.pending
    ensures r.timers == w.timers - {u}
    ensures u in w.tracking && w.tracking[u].joinTime.Some? ==>
      var t := w.tracking[u];
      u in r.tracking && r.tracking[u] == Tracking(None, t.totalTime + (now - t.joinTime.value))
    ensures !(u in w.tracking && w.tracking[u].joinTime.Some?) ==> r.tracking == w.tracking
    ensures forall v :: v != u ==> (v in r.pending <==> v in w.pending)
    ensures Inv(w) ==> Inv(r) && forall h :: h in r.deadlines ==> r.deadlines[h] != u
  {
    if Inv(w) then
      LeaveKeepsInv(w, u, now);
      Leave(w, u, now).0
    else Leave(w, u, now).0
  }

  /** A move is a departure followed by an arrival: the stay in the old
      channel is banked into the total, a new stay starts now, and the check
      is re-armed for the new channel with no challenge left. */
  function HandleMove(w: Watch, u: UserId, ch: ChannelId, g: GuildId, now: int): (r: Watch)
    ensures r.timers == w.timers[u := CheckTimer(ch, g, true)]
    ensures u !in r.pending && u in r.tracking && r.tracking[u].joinTime == Some(now)
    ensures u in w.tracking && w.tracking[u].joinTime.Some? ==>
      r.tracking[u].totalTime == w.tracking[u].totalTime + (now - w.tracking[u].joinTime.value)
    ensures !(u in w.tracking && w.tracking[u].joinTime.Some?) ==>
      r.tracking[u].totalTime == (if u in w.tracking then w.tracking[u].totalTime else 0)
    ensures forall v :: v != u && v in w.tracking ==> v in r.tracking && r.tracking[v] == w.tracking[v]
    ensures Inv(w) ==> Inv(r) && forall h :: h in r.deadlines ==> r.deadlines[h] != u
  {
    HandleJoin(HandleLeave(w, u, now), u, ch, g, now)
  }

  /** The check timer's callback sends the check at once, against what the
      platform shows (`view`). A cancelled or already fired timer does
      nothing. */
  function TimerFires(w: Watch, u: UserId, view: CheckView): (r: Watch)
    requires Inv(w)
    ensures Inv(r)
    ensures !(u in w.timers && w.timers[u].live) ==> r == w
    ensures u in w.timers && w.timers[u].live ==>
      var t := w.timers[u];
      r == ApplyCheck(MarkFired(w, u), u, t.channelId, t.guildId, Decide(view))
    ensures r.tracking == w.tracking
  {
    if u in w.timers && w.timers[u].live then
      var t := w.timers[u];
      ApplyCheck(MarkFired(w, u), u, t.channelId, t.guildId, Decide(view))
    else w
  }

  /** A reaction confirms when it is not from a bot and is the confirm emoji
      on the user's current challenge. */
  function ReactionAdded(w: Watch, u: UserId, fromBot: bool, messageId: MessageId, emoji: string): (r: Watch)
    ensures r == w || r == Confirm(w, u)
    ensures r != w ==>
      !fromBot && u in w.pending && IsConfirmingReaction(w.pending[u].messageId, messageId, emoji)
    ensures (!fromBot && u in w.pending && IsConfirmingReaction(w.pending[u].messageId, messageId, emoji)) ==>
      u !in r.pending
  {
    if !fromBot && u in w.pending && IsConfirmingReaction(w.pending[u].messageId, messageId, emoji) then Confirm(w, u)
    else w
  }

  function MessageCreated(w: Watch, u: UserId, fromBot: bool, content: string): (r: Watch)
    ensures r == w || r == Confirm(w, u)
    ensures r != w ==> !fromBot && IsHereCommand(content) && u in w.pending
    ensures !fromBot && IsHereCommand(content) && u in w.pending ==> u !in r.pending
  {
    if !fromBot && IsHereCommand(content) && u in w.pending then Confirm(w, u) else w
  }

  /** Whether the kick reaches the leave handling. Unlike the current bot,
      the kick notice is not guarded: when it fails, the leave is skipped.
      The notice is only attempted while the user's challenge is recorded. */
  predicate KickLeaves(view: KickView, challengeRecorded: bool)
  {
    view.KickResolved?
    && (!view.inVoice || (view.disconnected && (!challengeRecorded || view.noticeSent)))
  }

  /** A deadline fires: the kick (per `view`), then the pending entry is
      dropped. */
  function DeadlineFires(w: Watch, h: nat, view: KickView, now: int): (r: Watch)
    requires Inv(w)
    ensures Inv(r)
    ensures h !in w.deadlines ==> r == w
    ensures h in w.deadlines ==>
      var u := w.deadlines[h];
      && h !in r.deadlines && u !in r.pending
      && (KickLeaves(view, true) ==> u !in r.timers)
      && (!KickLeaves(view, true) ==> r.timers == w.timers && r.tracking == w.tracking)
  {
    if h !in w.deadlines then w
    else
      ExpireKeepsInv(w, h, KickLeaves(view, true), now);
      Expire(w, h, KickLeaves(view, true), now).0
  }

  datatype Event =
    | JoinVoice(user: UserId, channelId: ChannelId, guildId: GuildId)
    | LeaveVoice(user: UserId)
    | MoveVoice(user: UserId, channelId: ChannelId, guildId: GuildId)
    | CheckTimerFired(user: UserId, view: CheckView)
    | Reaction(user: UserId, fromBot: bool, messageId: MessageId, emoji: string)
    | Message(user: UserId, fromBot: bool, content: string)
    | DeadlineFired(handle: nat, kick: KickView)

  function Step(w: Watch, now: int, ev: Event): (r: Watch)
    requires Inv(w)
    ensures Inv(r)
  {
    match ev
    case JoinVoice(u, ch, g) => HandleJoin(w, u, ch, g, now)
    case LeaveVoice(u) => LeaveKeepsInv(w, u, now); HandleLeave(w, u, now)
    case MoveVoice(u, ch, g) => LeaveKeepsInv(w, u, now); HandleMove(w, u, ch, g, now)
    case CheckTimerFired(u, view) => TimerFires(w, u, view)
    case Reaction(u, fromBot, m, emoji) =>
      if ReactionAdded(w, u, fromBot, m, emoji) != w then ConfirmLeavesNoDeadline(w, u); ReactionAdded(w, u, fromBot, m, emoji)
      else w
    case Message(u, fromBot, content) =>
      if MessageCreated(w, u, fromBot, content) != w then ConfirmLeavesNoDeadline(w, u); MessageCreated(w, u, fromBot, content)
      else w
    case DeadlineFired(h, kick) => DeadlineFires(w, h, kick, now)
  }

  /** Any trace of events keeps the invariant, whatever the clock says. */
  function Run(w: Watch, evs: seq<(int, Event)>): (r: Watch)
    requires Inv(w)
    ensures Inv(r)
    decreases |evs|
  {
    if evs == [] then w else Run(Step(w, evs[0].0, evs[0].1), evs[1..])
  }

  /** When the kick notice cannot be posted the member is disconnected but
      their check-timer entry and voice time are left as they were. */
  lemma FailedNoticeSkipsLeave(w: Watch, h: nat, now: int)
    requires Inv(w) && h in w.deadlines
    ensures var u := w.deadlines[h];
      var r := DeadlineFires(w, h, KickResolved(true, true, false), now);
      r.timers == w.timers && r.tracking == w.tracking && u !in r.pending
  {
  }
}

=== FILE: leveling.dfy ===
/** The closed-form level arithmetic of the progression store:
    level = floor(sqrt(xp / 100)) + 1, and the XP threshold of the next level. */
module Leveling {

  /** Integer square root: the largest r with r * r <= n. */
  function Isqrt(n: nat): (r: nat)
    ensures r * r <= n < (r + 1) * (r + 1)
  {
    if n < 4 then
      (if n == 0 then 0 else 1)
    else
      var h := Isqrt(n / 4);
      QuarterBand(n, h);
      DoubledSquares(h);
      if (2 * h + 1) * (2 * h + 1) <= n then 2 * h + 1 else 2 * h
  }

  /** A root of n / 4 brackets n between the squares of its doubles. */
  lemma QuarterBand(n: nat, h: nat)
    requires h * h <= n / 4 < (h + 1) * (h + 1)
    ensures 4 * (h * h) <= n < 4 * ((h + 1) * (h + 1))
  {
    var q := n / 4;
    assert 4 * q <= n < 4 * q + 4;
    assert q + 1 <= (h + 1) * (h + 1);
  }

  lemma DoubledSquares(h: nat)
    ensures (2 * h) * (2 * h) == 4 * (h * h)
    ensures (2 * h + 2) * (2 * h + 2) == 4 * ((h + 1) * (h + 1))
  {
  }

  /** The level reached with `xp` experience points. Since a natural n has
      n * n <= x exactly when n * n <= floor(x), floor(sqrt(xp / 100)) is the
      integer square root of xp / 100 (integer division). The level is the
      unique L >= 1 whose band [(L-1)^2 * 100, L^2 * 100) contains xp. */
  function CalculateLevel(xp: nat): (level: nat)
    ensures level >= 1
    ensures (level - 1) * (level - 1) * 100 <= xp < level * level * 100
  {
    var q := xp / 100;
    var r := Isqrt(q);
    assert r * r * 100 <= q * 100 <= xp;
    assert xp < (q + 1) * 100 <= (r + 1) * (r + 1) * 100;
    r + 1
  }

  /** XP at which a player of `level` reaches the next level. */
  function XPForNextLevel(level: int): int
  {
    level * level * 100
  }

  lemma SquareMonotone(a: nat, b: nat)
    requires a <= b
    ensures a * a <= b * b
  {
    assert a * a <= a * b <= b * b;
  }

  /** The band characterisation determines the level uniquely. */
  lemma LevelUnique(xp: nat, level: nat)
    requires level >= 1
    requires (level - 1) * (level - 1) * 100 <= xp < level * level * 100
    ensures CalculateLevel(xp) == level
  {
    var l := CalculateLevel(xp);
    if l < level {
      SquareMonotone(l, level - 1);
      assert false;
    } else if l > level {
      SquareMonotone(level, l - 1);
      assert false;
    }
  }

  /** Round trip with the threshold table: exactly XPForNextLevel(L) XP
      reaches level L + 1, one XP less is still level L
      (2500 XP is level 6, 2499 XP is level 5). */
  lemma LevelThresholdRoundTrip(level: nat)
    requires level >= 1
    ensures XPForNextLevel(level) >= 1
    ensures CalculateLevel(XPForNextLevel(level)) == level + 1
    ensures CalculateLevel(XPForNextLevel(level) - 1) == level
  {
    SquareMonotone(1, level);
    LevelUnique(XPForNextLevel(level), level + 1);
    SquareMonotone(level - 1, level);
    if level > 1 {
      SquareMonotone(level - 1, level);
      assert (level - 1) * (level - 1) < level * level by {
        assert (level - 1) * (level - 1) == level * level - 2 * level + 1;
      }
    }
    LevelUnique(XPForNextLevel(level) - 1, level);
  }

  /** More XP never lowers the level. */
  lemma LevelMonotone(a: nat, b: nat)
    requires a <= b
    ensures CalculateLevel(a) <= CalculateLevel(b)
  {
    var la, lb := CalculateLevel(a), CalculateLevel(b);
    if la > lb {
      SquareMonotone(lb, la - 1);
      assert false;
    }
  }

  /** A level of at least L is reached exactly from XPForNextLevel(L - 1) XP on. */
  lemma LevelAtLeast(xp: nat, level: nat)
    requires level >= 1
    ensures CalculateLevel(xp) >= level <==> xp >= XPForNextLevel(level - 1)
  {
    var l := CalculateLevel(xp);
    if l >= level {
      SquareMonotone(level - 1, l - 1);
    } else {
      SquareMonotone(l, level - 1);
    }
  }

  /** The example from the level table: 2499 XP is level 5, 2500 XP is level 6. */
  lemma LevelExamples()
    ensures CalculateLevel(2499) == 5 && CalculateLevel(2500) == 6
  {
    LevelThresholdRoundTrip(5);
  }
}

=== FILE: presence.dfy ===
/** The per-user watchdog state shared by both bot variants: voice-time
    tracking, the check-timer map, the pending confirmations and their
    deadline timers. Timers are map entries; firing is an explicit event. */
module Presence {
  import opened Common
  import opened Channels

  /** Voice-time bookkeeping: the start of the current stay (if in voice)
      and the time accumulated over earlier stays, in ms. */
  datatype Tracking = Tracking(joinTime: Option<int>, totalTime: int)

  /** An entry of the check-timer map: where the challenge goes, and whether
      the timer callback is still to run (`live`). The entry outlives its
      callback until it is cleared or replaced. */
  datatype CheckTimer = CheckTimer(channelId: ChannelId, guildId: GuildId, live: bool)

  /** An outstanding challenge: its message, where to re-arm the check after
      a confirmation, and the handle of its deadline timer. */
  datatype Confirmation = Confirmation(messageId: MessageId, channelId: ChannelId, guildId: GuildId, deadline: nat)

  /** `deadlines` holds the live deadline timers by handle; `nextHandle` is
      the next handle to hand out. */
  datatype Watch = Watch(
    tracking: map<UserId, Tracking>,
    timers: map<UserId, CheckTimer>,
    pending: map<UserId, Confirmation>,
    deadlines: map<nat, UserId>,
    nextHandle: nat)

  const Idle: Watch := Watch(map[], map[], map[], map[], 0)

  /** Live deadline timers and pending confirmations correspond one to one. */
  predicate Inv(w: Watch)
  {
    && (forall h :: h in w.deadlines ==>
          h < w.nextHandle && w.deadlines[h] in w.pending && w.pending[w.deadlines[h]].deadline == h)
    && (forall u :: u in w.pending ==>
          w.pending[u].deadline in w.deadlines && w.deadlines[w.pending[u].deadline] == u)
  }

  /** The user a live deadline will act on. */
  predicate HasDeadline(w: Watch, u: UserId)
  {
    exists h :: h in w.deadlines && w.deadlines[h] == u
  }

  /** Under the invariant no user ever has two live deadline timers, and a
      user has one exactly when a confirmation is pending. */
  lemma AtMostOneDeadline(w: Watch)
    requires Inv(w)
    ensures forall h1, h2 :: h1 in w.deadlines && h2 in w.deadlines && w.deadlines[h1] == w.deadlines[h2] ==> h1 == h2
    ensures forall u :: HasDeadline(w, u) <==> u in w.pending
  {
    forall u | u in w.pending
      ensures HasDeadline(w, u)
    {
      assert w.pending[u].deadline in w.deadlines;
    }
  }

  /** Join bookkeeping: the stay starts now, earlier time is kept (or 0). */
  function Arrive(w: Watch, u: UserId, now: int): Watch
  {
    var total := if u in w.tracking then w.tracking[u].totalTime else 0;
    w.(tracking := w.tracking[u := Tracking(Some(now), total)])
  }

  /** Leave bookkeeping: an open stay is folded into the total and closed.
      The flag tells whether there was an open stay. */
  function Depart(w: Watch, u: UserId, now: int): (Watch, bool)
  {
    if u in w.tracking && w.tracking[u].joinTime.Some? then
      var t := w.tracking[u];
      (w.(tracking := w.tracking[u := Tracking(None, t.totalTime + (now - t.joinTime.value))]), true)
    else (w, false)
  }

  /** Arms a fresh check timer, replacing (and so cancelling) any earlier one. */
  function StartTimer(w: Watch, u: UserId, ch: ChannelId, g: GuildId): Watch
  {
    w.(timers := w.timers[u := CheckTimer(ch, g, true)])
  }

  function ClearTimer(w: Watch, u: UserId): Watch
  {
    w.(timers := w.timers - {u})
  }

  /** Cancels the pending confirmation and its deadline timer, if any. */
  function ClearPending(w: Watch, u: UserId): Watch
  {
    if u in w.pending then
      w.(pending := w.pending - {u}, deadlines := w.deadlines - {w.pending[u].deadline})
    else w
  }

  /** Removes the pending entry without cancelling its deadline timer. */
  function DropPending(w: Watch, u: UserId): Watch
  {
    w.(pending := w.pending - {u})
  }

  /** The check timer's callback has run: the entry stays, no longer live. */
  function MarkFired(w: Watch, u: UserId): Watch
    requires u in w.timers
  {
    w.(timers := w.timers[u := w.timers[u].(live := false)])
  }

  /** Records a posted challenge and arms its deadline timer, overwriting any
      pending entry of the user without cancelling that entry's deadline. */
  function PostChallengeAsWritten(w: Watch, u: UserId, m: MessageId, ch: ChannelId, g: GuildId): (r: Watch)
    ensures u in r.pending && r.pending[u] == Confirmation(m, ch, g, w.nextHandle)
    ensures r.deadlines == w.deadlines[w.nextHandle := u]
  {
    w.(pending := w.pending[u := Confirmation(m, ch, g, w.nextHandle)],
       deadlines := w.deadlines[w.nextHandle := u],
       nextHandle := w.nextHandle + 1)
  }

  /** Records a posted challenge after cancelling any earlier one, so the new
      challenge supersedes it. */
  function PostChallenge(w: Watch, u: UserId, m: MessageId, ch: ChannelId, g: GuildId): (r: Watch)
    requires Inv(w)
    ensures Inv(r)
    ensures u in r.pending && r.pending[u] == Confirmation(m, ch, g, r.nextHandle - 1)
    ensures forall h :: h in r.deadlines && r.deadlines[h] == u ==> h == r.pending[u].deadline
    ensures forall v :: v != u ==> (v in r.pending <==> v in w.pending)
    ensures r.timers == w.timers && r.tracking == w.tracking
  {
    var w1 := ClearPending(w, u);
    assert Inv(w1);
    var r := PostChallengeAsWritten(w1, u, m, ch, g);
    AtMostOneDeadline(r);
    r
  }

  /** handleUserConfirmation: without a pending challenge nothing happens;
      otherwise the challenge and its deadline are cancelled and a fresh
      check timer is armed for the challenge's channel and guild. */
  function Confirm(w: Watch, u: UserId): (r: Watch)
    ensures u !in w.pending ==> r == w
    ensures u in w.pending ==>
      && u !in r.pending
      && u in r.timers && r.timers[u] == CheckTimer(w.pending[u].channelId, w.pending[u].guildId, true)
      && r.deadlines == w.deadlines - {w.pending[u].deadline}
    ensures r.tracking == w.tracking
    ensures forall v :: v != u ==> (v in r.pending <==> v in w.pending)
    ensures forall v :: v != u && v in w.timers ==> v in r.timers && r.timers[v] == w.timers[v]
  {
    if u !in w.pending then w
    else
      var c := w.pending[u];
      StartTimer(ClearPending(w, u), u, c.channelId, c.guildId)
  }

  /** A confirmed challenge leaves its user with no deadline at all. */
  lemma ConfirmLeavesNoDeadline(w: Watch, u: UserId)
    requires Inv(w) && u in w.pending
    ensures var r := Confirm(w, u);
      Inv(r) && forall h :: h in r.deadlines ==> r.deadlines[h] != u
  {
    var r := Confirm(w, u);
    AtMostOneDeadline(w);
    assert Inv(r);
    AtMostOneDeadline(r);
  }

  /** The watchdog part of a departure: the open stay is folded into the
      total, the check timer and the pending challenge (with its deadline)
      are cleared; the tracking entry itself is kept. The flag tells
      whether a stay was open. */
  function Leave(w: Watch, u: UserId, now: int): (r: (Watch, bool))
    ensures r.1 <==> u in w.tracking && w.tracking[u].joinTime.Some?
    ensures u !in r.0.timers && u !in r.0.pending
    ensures r.0.tracking.Keys == w.tracking.Keys
    ensures r.1 ==>
      var t := w.tracking[u];
      r.0.tracking[u] == Tracking(None, t.totalTime + (now - t.joinTime.value))
    ensures !r.1 ==> r.0.tracking == w.tracking
    ensures forall v :: v != u && v in w.tracking ==> r.0.tracking[v] == w.tracking[v]
    ensures r.0.timers == w.timers - {u}
    ensures forall v :: v != u ==> (v in r.0.pending <==> v in w.pending)
    ensures r.0.nextHandle == w.nextHandle
  {
    var (w1, open) := Depart(w, u, now);
    (ClearPending(ClearTimer(w1, u), u), open)
  }

  /** A departure keeps the invariant and leaves no deadline for the user. */
  lemma LeaveKeepsInv(w: Watch, u: UserId, now: int)
    requires Inv(w)
    ensures Inv(Leave(w, u, now).0) && !HasDeadline(Leave(w, u, now).0, u)
  {
    var r := Leave(w, u, now).0;
    AtMostOneDeadline(w);
    assert Inv(r);
    AtMostOneDeadline(r);
  }

  /** What a firing check does, decided in the order the sender checks:
      anything it cannot resolve in the platform cache makes it give up
      silently; a member no longer in voice stops being watched; no postable
      channel or a failed post re-arms the check; else the challenge is out. */
  datatype PostOutcome = Posted(messageId: MessageId) | PostFailed

  datatype CheckView =
    | Unresolved
    | Resolved(voiceName: string, inVoice: bool, channels: seq<Channel>, post: PostOutcome)

  datatype CheckDecision = GiveUp | StopWatching | Rearm | Challenge(messageId: MessageId)

  function Decide(view: CheckView): (d: CheckDecision)
    ensures d == GiveUp <==> view.Unresolved?
    ensures d == StopWatching <==> view.Resolved? && !view.inVoice
    ensures d == Rearm <==>
      view.Resolved? && view.inVoice
      && (SelectTextChannel(view.channels, view.voiceName).None? || view.post.PostFailed?)
    ensures d.Challenge? ==>
      view.Resolved? && view.inVoice && view.post == Posted(d.messageId)
      && SelectTextChannel(view.channels, view.voiceName).Some?
  {
    match view
    case Unresolved => GiveUp
    case Resolved(voiceName, inVoice, channels, post) =>
      if !inVoice then StopWatching
      else if SelectTextChannel(channels, voiceName).None? then Rearm
      else match post
        case PostFailed => Rearm
        case Posted(m) => Challenge(m)
  }

  /** Applies a check's decision for user `u` armed with channel `ch` in guild `g`. */
  function ApplyCheck(w: Watch, u: UserId, ch: ChannelId, g: GuildId, d: CheckDecision): (r: Watch)
    requires Inv(w)
    ensures Inv(r)
    ensures r.tracking == w.tracking
    ensures d == GiveUp ==> r == w
    ensures d == StopWatching ==> r == ClearTimer(w, u)
    ensures d == Rearm ==> r == StartTimer(w, u, ch, g)
    ensures d.Challenge? ==> r == PostChallenge(w, u, d.messageId, ch, g)
  {
    match d
    case GiveUp => w
    case StopWatching => ClearTimer(w, u)
    case Rearm => StartTimer(w, u, ch, g)
    case Challenge(m) => PostChallenge(w, u, m, ch, g)
  }

  /** The same, with the challenge recorded as the sender writes it. */
  function ApplyCheckAsWritten(w: Watch, u: UserId, ch: ChannelId, g: GuildId, d: CheckDecision): Watch
  {
    match d
    case GiveUp => w
    case StopWatching => ClearTimer(w, u)
    case Rearm => StartTimer(w, u, ch, g)
    case Challenge(m) => PostChallengeAsWritten(w, u, m, ch, g)
  }

  /** Spending a user's deadline handle before the departure makes no
      difference to the departure's outcome. */
  lemma SpentDeadlineThenLeave(w: Watch, h: nat, now: int)
    requires Inv(w) && h in w.deadlines
    ensures var u := w.deadlines[h];
      Leave(w.(deadlines := w.deadlines - {h}), u, now) == Leave(w, u, now)
  {
    var u := w.deadlines[h];
    assert w.pending[u].deadline == h;
    assert w.deadlines - {h} - {h} == w.deadlines - {h};
  }

  /** Spending a user's deadline handle and then dropping the pending entry
      is the same as cancelling the pending challenge. */
  lemma SpentDeadlineThenDrop(w: Watch, h: nat)
    requires Inv(w) && h in w.deadlines
    ensures var u := w.deadlines[h];
      DropPending(w.(deadlines := w.deadlines - {h}), u) == ClearPending(w, u)
    ensures Inv(ClearPending(w, w.deadlines[h]))
  {
    var u := w.deadlines[h];
    assert w.pending[u].deadline == h;
    AtMostOneDeadline(w);
  }

  /** What a firing deadline finds: whether guild and member resolve, the
      member is still in voice, the disconnect succeeded and the kick notice
      was posted. */
  datatype KickView =
    | KickUnresolved
    | KickResolved(inVoice: bool, disconnected: bool, noticeSent: bool)

  /** A deadline timer fires: its handle is spent, then (when the removal
      path reached the leave handling) the departure runs, and finally the
      pending entry is dropped. `leaves` says whether the leave ran. */
  function Expire(w: Watch, h: nat, leaves: bool, now: int): (r: (Watch, UserId))
    requires h in w.deadlines
  {
    var u := w.deadlines[h];
    var w1 := w.(deadlines := w.deadlines - {h});
    var w2 := if leaves then Leave(w1, u, now).0 else w1;
    (DropPending(w2, u), u)
  }

  lemma ExpireKeepsInv(w: Watch, h: nat, leaves: bool, now: int)
    requires Inv(w) && h in w.deadlines
    ensures var (r, u) := Expire(w, h, leaves, now);
            Inv(r) && u !in r.pending && !HasDeadline(r, u)
  {
    var u := w.deadlines[h];
    assert w.pending[u].deadline == h;
    AtMostOneDeadline(w);
    var (r, _) := Expire(w, h, leaves, now);
    assert Inv(r);
    AtMostOneDeadline(r);
  }
}

=== FILE: server.dfy ===
/** The dashboard server's settings endpoints and the achievement listing.
    A request body field is either a number or missing (absent or null). */
module Server {
  import opened Common
  import opened Settings
  import G = Gamification

  datatype Field = Missing | Num(n: int)

  /** JavaScript falsiness of a body field: missing, or the number zero. */
  predicate Falsy(f: Field)
  {
    f.Missing? || f.n == 0
  }

  datatype Response = Response(status: nat, success: bool, message: string)

  const MissingFields: string := "Missing required fields"
  const AfkRange: string := "AFK interval must be between 1-180 minutes"
  const TimeoutRange: string := "Confirmation timeout must be between 1-10 minutes"
  const Saved: string := "Settings saved successfully"

  /** The four answers can be told apart. */
  lemma MessagesDistinct()
    ensures MissingFields != AfkRange && MissingFields != TimeoutRange && AfkRange != TimeoutRange
    ensures Saved != MissingFields && Saved != AfkRange && Saved != TimeoutRange
  {
    assert |MissingFields| == 23 && |Saved| == 27;
    assert |AfkRange| == 42 && |TimeoutRange| == 49;
  }

  /** The server's handle on the bot module: not loaded yet, or loaded with
      its current settings. */
  datatype State = State(bot: Option<Record>)

  /** The settings GET returns: the defaults when no bot is loaded. */
  function GetSettings(st: State): (r: Record)
    ensures st.bot.None? ==> r == Defaults
    ensures st.bot.Some? ==> r == st.bot.value
  {
    match st.bot
    case None => Defaults
    case Some(s) => s
  }

  /** The settings POST: three checks in order, each answering 400 with its
      own message; otherwise the bot is loaded if needed (starting from
      `boot`, the settings a freshly loaded bot holds) and the two values are
      merged in. */
  function PostSettings(st: State, boot: Record, afk: Field, timeout: Field): (r: (State, Response))
    ensures r.1.status == 400 ==> r.0 == st && !r.1.success
    ensures r.1.message == MissingFields <==> Falsy(afk) || Falsy(timeout)
    ensures r.1.message == AfkRange <==>
      !Falsy(afk) && !Falsy(timeout) && (afk.n < 1 || afk.n > 180)
    ensures r.1.message == TimeoutRange <==>
      !Falsy(afk) && !Falsy(timeout) && 1 <= afk.n <= 180 && (timeout.n < 1 || timeout.n > 10)
    ensures r.1.status == 200 <==>
      !Falsy(afk) && !Falsy(timeout) && 1 <= afk.n <= 180 && 1 <= timeout.n <= 10
    ensures r.1.status == 200 ==>
      && r.1 == Response(200, true, Saved)
      && r.0.bot.Some?
      && r.0.bot.value == UpdateSettings(GetSettingsOrBoot(st, boot), map[AfkKey := afk.n, TimeoutKey := timeout.n])
    ensures r.1.status == 200 || r.1.status == 400
  {
    MessagesDistinct();
    if Falsy(afk) || Falsy(timeout) then (st, Response(400, false, MissingFields))
    else if afk.n < 1 || afk.n > 180 then (st, Response(400, false, AfkRange))
    else if timeout.n < 1 || timeout.n > 10 then (st, Response(400, false, TimeoutRange))
    else
      var current := GetSettingsOrBoot(st, boot);
      (State(Some(UpdateSettings(current, map[AfkKey := afk.n, TimeoutKey := timeout.n]))), Response(200, true, Saved))
  }

  /** The settings the POST merges into: the loaded bot's, or a fresh one's. */
  function GetSettingsOrBoot(st: State, boot: Record): Record
  {
    if st.bot.Some? then st.bot.value else boot
  }

  /** A zero is reported as missing, never as out of range, because the
      falsiness check comes first. */
  lemma ZeroReportedMissing(st: State, boot: Record, timeout: Field)
    ensures PostSettings(st, boot, Num(0), timeout).1 == Response(400, false, MissingFields)
  {
  }

  /** Before any bot is loaded the page is shown the defaults, which give the
      original bot's fixed intervals. */
  lemma GetSettingsBeforeLoad()
    ensures Complete(GetSettings(State(None)))
    ensures CheckIntervalMs(GetSettings(State(None))) == 30 * 60 * 1000
    ensures ConfirmationTimeoutMs(GetSettings(State(None))) == 2 * 60 * 1000
  {
    DefaultsMatchLegacy();
  }

  /** Reading the settings after a successful save returns the saved values,
      with every other key as it was. */
  lemma GetAfterPost(st: State, boot: Record, afk: Field, timeout: Field)
    requires PostSettings(st, boot, afk, timeout).1.status == 200
    ensures var s := GetSettings(PostSettings(st, boot, afk, timeout).0);
      && Complete(s)
      && s[AfkKey] == afk.n && s[TimeoutKey] == timeout.n
      && (forall k :: k in GetSettingsOrBoot(st, boot) && k != AfkKey && k != TimeoutKey ==>
            k in s && s[k] == GetSettingsOrBoot(st, boot)[k])
      && 60000 <= CheckIntervalMs(s) <= 10800000
  {
    var s := GetSettings(PostSettings(st, boot, afk, timeout).0);
    IntervalsInRange(s);
  }

  /** An achievement as listed by the server. */
  datatype Entry = Entry(id: string, name: string, description: string)

  /** Every definition, in definition order, as an (id, name, description) triple. */
  function AchievementList(): (r: seq<Entry>)
    ensures |r| == |G.AllKinds|
    ensures forall i :: 0 <= i < |r| ==>
      r[i] == Entry(G.Key(G.AllKinds[i]), G.Name(G.AllKinds[i]), G.Description(G.AllKinds[i]))
  {
    seq(|G.AllKinds|, i requires 0 <= i < |G.AllKinds| =>
      Entry(G.Key(G.AllKinds[i]), G.Name(G.AllKinds[i]), G.Description(G.AllKinds[i])))
  }

  /** The listing names every achievement, with its name and description. */
  lemma AchievementListComplete()
    ensures forall k: G.Kind :: Entry(G.Key(k), G.Name(k), G.Description(k)) in AchievementList()
  {
    G.AllKindsComplete();
    var r := AchievementList();
    forall k: G.Kind
      ensures Entry(G.Key(k), G.Name(k), G.Description(k)) in r
    {
      assert k in G.AllKinds;
      var i :| 0 <= i < |G.AllKinds| && G.AllKinds[i] == k;
      assert r[i] == Entry(G.Key(k), G.Name(k), G.Description(k));
    }
  }

  /** No achievement is listed twice. */
  lemma AchievementListDistinct()
    ensures forall i, j :: 0 <= i < j < |AchievementList()| ==> AchievementList()[i].id != AchievementList()[j].id
  {
    var r := AchievementList();
    forall i, j | 0 <= i < j < |r|
      ensures r[i].id != r[j].id
    {
      G.AllKindsDistinct(i, j);
      G.KeyInjective(G.AllKinds[i], G.AllKinds[j]);
    }
  }
}

=== FILE: settings.dfy ===
/** The bot's adjustable settings: a key-value record starting from two
    defaults, updated by shallow merge, read as millisecond intervals. */
module Settings {
  import Legacy

  type Record = map<string, int>

  const AfkKey: string := "afkInterval"
  const TimeoutKey: string := "confirmTimeout"

  /** 30 minutes between checks, 2 minutes to answer. */
  const Defaults: Record := map[AfkKey := 30, TimeoutKey := 2]

  const MsPerMinute: nat := 60 * 1000

  /** Both interval keys are present (as they are from the defaults on). */
  predicate Complete(s: Record)
  {
    AfkKey in s && TimeoutKey in s
  }

  /** Shallow merge: every key of the update takes the update's value; every
      other key keeps its value. No key is lost. */
  function UpdateSettings(s: Record, update: Record): (r: Record)
    ensures r.Keys == s.Keys + update.Keys
    ensures forall k :: k in update ==> r[k] == update[k]
    ensures forall k :: k in s && k !in update ==> r[k] == s[k]
    ensures Complete(s) ==> Complete(r)
  {
    s + update
  }

  /** The check interval in ms: the configured minutes times one minute. */
  function CheckIntervalMs(s: Record): (ms: int)
    requires Complete(s)
    ensures ms / MsPerMinute == s[AfkKey] && ms % MsPerMinute == 0
  {
    s[AfkKey] * MsPerMinute
  }

  function ConfirmationTimeoutMs(s: Record): (ms: int)
    requires Complete(s)
    ensures ms / MsPerMinute == s[TimeoutKey] && ms % MsPerMinute == 0
  {
    s[TimeoutKey] * MsPerMinute
  }

  /** Each interval is determined by, and ordered like, its configured minutes. */
  lemma IntervalsFollowMinutes(s: Record, t: Record)
    requires Complete(s) && Complete(t)
    ensures CheckIntervalMs(s) == CheckIntervalMs(t) <==> s[AfkKey] == t[AfkKey]
    ensures CheckIntervalMs(s) < CheckIntervalMs(t) <==> s[AfkKey] < t[AfkKey]
    ensures ConfirmationTimeoutMs(s) == ConfirmationTimeoutMs(t) <==> s[TimeoutKey] == t[TimeoutKey]
    ensures ConfirmationTimeoutMs(s) < ConfirmationTimeoutMs(t) <==> s[TimeoutKey] < t[TimeoutKey]
  {
  }

  /** Saving only the check minutes changes only the check interval, and
      reading it back gives the saved minutes; likewise for the timeout. */
  lemma UpdateOneInterval(s: Record, m: int)
    requires Complete(s)
    ensures Complete(UpdateSettings(s, map[AfkKey := m]))
    ensures CheckIntervalMs(UpdateSettings(s, map[AfkKey := m])) / MsPerMinute == m
    ensures ConfirmationTimeoutMs(UpdateSettings(s, map[AfkKey := m])) == ConfirmationTimeoutMs(s)
    ensures Complete(UpdateSettings(s, map[TimeoutKey := m]))
    ensures ConfirmationTimeoutMs(UpdateSettings(s, map[TimeoutKey := m])) / MsPerMinute == m
    ensures CheckIntervalMs(UpdateSettings(s, map[TimeoutKey := m])) == CheckIntervalMs(s)
  {
    assert AfkKey != TimeoutKey;
  }

  /** The defaults give the fixed intervals of the original bot. */
  lemma DefaultsMatchLegacy()
    ensures Complete(Defaults)
    ensures CheckIntervalMs(Defaults) == Legacy.CheckInterval
    ensures ConfirmationTimeoutMs(Defaults) == Legacy.ConfirmationTimeout
  {
  }

  /** Minutes in the accepted ranges give intervals between one minute and
      three hours, and a timeout between one and ten minutes. */
  lemma IntervalsInRange(s: Record)
    requires Complete(s)
    requires 1 <= s[AfkKey] <= 180 && 1 <= s[TimeoutKey] <= 10
    ensures 60000 <= CheckIntervalMs(s) <= 10800000
    ensures 60000 <= ConfirmationTimeoutMs(s) <= 600000
  {
  }
}

=== FILE: store.dfy ===
/** The progression store: one record per user, an append-only set of
    achievement unlocks and the session history. Calendar days and clock
    readings are integers supplied by the caller. */
module Store {
  import opened Common
  import opened Leveling

  /** A row of the users table. `lastActive` is the calendar day of the last
      streak update (or of creation). */
  datatype User = User(
    username: string,
    totalTime: nat,
    xp: nat,
    level: nat,
    streak: nat,
    lastActive: Option<int>)

  /** A row of the sessions table; its id is its position plus one. */
  datatype Session = Session(
    userId: UserId,
    joinTime: int,
    leaveTime: Option<int>,
    duration: nat,
    xpEarned: nat)

  datatype Db = Db(
    users: map<UserId, User>,
    achievements: set<(UserId, string)>,
    sessions: seq<Session>)

  datatype XPResult = XPResult(leveledUp: bool, newLevel: nat, newXP: nat)

  const EmptyDb := Db(map[], {}, [])

  /** The stored level agrees with the level formula. */
  predicate LevelConsistent(u: User)
  {
    u.level == CalculateLevel(u.xp)
  }

  function GetUser(db: Db, id: UserId): (r: Option<User>)
    ensures r.Some? <==> id in db.users
    ensures r.Some? ==> r.value == db.users[id]
  {
    if id in db.users then Some(db.users[id]) else None
  }

  /** A lookup after an insert-or-ignore finds the user: the old record when
      there was one, the fresh record otherwise; other lookups are unchanged. */
  lemma GetAfterCreate(db: Db, id: UserId, name: string, today: int, other: UserId)
    ensures GetUser(CreateUser(db, id, name, today).0, id).Some?
    ensures id in db.users ==> GetUser(CreateUser(db, id, name, today).0, id) == GetUser(db, id)
    ensures id !in db.users ==>
      GetUser(CreateUser(db, id, name, today).0, id) == Some(User(name, 0, 0, 1, 0, Some(today)))
    ensures other != id ==> GetUser(CreateUser(db, id, name, today).0, other) == GetUser(db, other)
  {
  }

  /** Insert-or-ignore of a fresh user, then a read of the row. */
  function CreateUser(db: Db, id: UserId, name: string, today: int): (r: (Db, User))
    ensures id in r.0.users && r.1 == r.0.users[id]
    ensures id in db.users ==> r.0 == db
    ensures id !in db.users ==>
      && r.1 == User(name, 0, 0, 1, 0, Some(today))
      && r.0.users.Keys == db.users.Keys + {id}
    ensures forall v :: v in db.users ==> v in r.0.users && r.0.users[v] == db.users[v]
    ensures r.0.achievements == db.achievements && r.0.sessions == db.sessions
  {
    if id in db.users then (db, db.users[id])
    else
      var u := User(name, 0, 0, 1, 0, Some(today));
      (db.(users := db.users[id := u]), u)
  }

  /** Creating a user twice is the same as creating it once. */
  lemma CreateUserIdempotent(db: Db, id: UserId, name: string, name': string, today: int, today': int)
    ensures CreateUser(CreateUser(db, id, name, today).0, id, name', today') == CreateUser(db, id, name, today)
  {
  }

  /** Overwrites a user's total time (updateUser with `total_time`). */
  function SetTotalTime(db: Db, id: UserId, total: nat): (r: Db)
    ensures r.achievements == db.achievements && r.sessions == db.sessions
    ensures r.users.Keys == db.users.Keys
    ensures id in db.users ==> r.users[id] == db.users[id].(totalTime := total)
    ensures forall v :: v in db.users && v != id ==> r.users[v] == db.users[v]
  {
    if id in db.users then db.(users := db.users[id := db.users[id].(totalTime := total)])
    else db
  }

  /** Writing a total time reads back as written, a second write overrides
      the first, and the write leaves the level in step with the XP. */
  lemma SetTotalTimeReadBack(db: Db, id: UserId, t1: nat, t2: nat)
    requires id in db.users
    ensures GetUser(SetTotalTime(db, id, t1), id).value.totalTime == t1
    ensures SetTotalTime(SetTotalTime(db, id, t1), id, t2) == SetTotalTime(db, id, t2)
    ensures LevelConsistent(db.users[id]) ==> LevelConsistent(SetTotalTime(db, id, t1).users[id])
  {
  }

  /** Adds XP, recomputes the level from the new total, and reports a level-up
      when the new level exceeds the stored one. Unknown users give None. */
  function AddXP(db: Db, id: UserId, amount: nat): (r: (Db, Option<XPResult>))
    ensures r.1.None? <==> id !in db.users
    ensures id !in db.users ==> r.0 == db
    ensures id in db.users ==>
      var u := db.users[id];
      var x := r.1.value;
      && x.newXP == u.xp + amount
      && (x.newLevel - 1) * (x.newLevel - 1) * 100 <= x.newXP < x.newLevel * x.newLevel * 100
      && (x.leveledUp <==> x.newLevel > u.level)
      && id in r.0.users
      && r.0.users[id] == u.(xp := x.newXP, level := x.newLevel)
    ensures r.0.users.Keys == db.users.Keys
    ensures forall v :: v in db.users && v != id ==> r.0.users[v] == db.users[v]
    ensures r.0.achievements == db.achievements && r.0.sessions == db.sessions
  {
    if id !in db.users then (db, None)
    else
      var u := db.users[id];
      var newXP := u.xp + amount;
      var newLevel := CalculateLevel(newXP);
      var leveledUp := newLevel > u.level;
      (db.(users := db.users[id := u.(xp := newXP, level := newLevel)]),
       Some(XPResult(leveledUp, newLevel, newXP)))
  }

  /** After AddXP the stored level agrees with the formula again, even when
      the row held a stale level before; and, starting from a consistent row,
      a level-up is reported exactly when the new total reaches the next
      level's threshold. */
  lemma AddXPLevelUp(db: Db, id: UserId, amount: nat)
    requires id in db.users
    ensures LevelConsistent(AddXP(db, id, amount).0.users[id])
    ensures LevelConsistent(db.users[id]) ==>
      (AddXP(db, id, amount).1.value.leveledUp <==>
         db.users[id].xp + amount >= XPForNextLevel(db.users[id].level))
  {
    var u := db.users[id];
    var x := AddXP(db, id, amount).1.value;
    LevelUnique(x.newXP, x.newLevel);
    if LevelConsistent(u) {
      LevelAtLeast(x.newXP, u.level + 1);
    }
  }

  /** Crossing from 2499 to 2500 XP reports a level-up from 5 to 6. */
  lemma AddXPCrossingExample(db: Db, id: UserId)
    requires id in db.users && db.users[id].xp == 2499 && db.users[id].level == 5
    ensures AddXP(db, id, 1).1 == Some(XPResult(true, 6, 2500))
  {
    LevelExamples();
  }

  /** The streak rule on calendar days: same day keeps the streak, the next
      day extends it, any other gap (or no stamp) restarts it at 1. Unknown
      users give 0 and nothing changes. In every other case the day is stamped. */
  function UpdateStreak(db: Db, id: UserId, today: int): (r: (Db, nat))
    ensures id !in db.users ==> r == (db, 0)
    ensures id in db.users ==>
      var u := db.users[id];
      && id in r.0.users
      && r.0.users[id] == u.(streak := r.1, lastActive := Some(today))
      && (u.lastActive.None? ==> r.1 == 1)
      && (u.lastActive.Some? && today - u.lastActive.value == 0 ==> r.1 == u.streak)
      && (u.lastActive.Some? && today - u.lastActive.value == 1 ==> r.1 == u.streak + 1)
      && (u.lastActive.Some? && today - u.lastActive.value != 0 && today - u.lastActive.value != 1 ==> r.1 == 1)
    ensures r.0.users.Keys == db.users.Keys
    ensures forall v :: v in db.users && v != id ==> r.0.users[v] == db.users[v]
    ensures r.0.achievements == db.achievements && r.0.sessions == db.sessions
  {
    if id !in db.users then (db, 0)
    else
      var u := db.users[id];
      var newStreak :=
        match u.lastActive
        case None => 1
        case Some(last) =>
          var daysDiff := today - last;
          if daysDiff == 0 then u.streak
          else if daysDiff == 1 then u.streak + 1
          else 1;
      (db.(users := db.users[id := u.(streak := newStreak, lastActive := Some(today))]), newStreak)
  }

  /** A second update on the same day changes nothing and reports the same streak. */
  lemma UpdateStreakSameDayIdempotent(db: Db, id: UserId, today: int)
    ensures var (db1, s1) := UpdateStreak(db, id, today);
            UpdateStreak(db1, id, today) == (db1, s1)
  {
    var (db1, s1) := UpdateStreak(db, id, today);
    if id in db.users {
      var u1 := db1.users[id];
      assert u1.(streak := u1.streak, lastActive := Some(today)) == u1;
      assert db1.users[id := u1] == db1.users;
    }
  }

  /** Applies one streak update per day in `days`. */
  function StreakAfterDays(db: Db, id: UserId, days: seq<int>): Db
    decreases |days|
  {
    if days == [] then db
    else StreakAfterDays(UpdateStreak(db, id, days[0]).0, id, days[1..])
  }

  /** Being active on k consecutive days, the first of which follows the last
      stamped day, extends the streak by exactly k. */
  lemma {:induction false} ConsecutiveDaysExtendStreak(db: Db, id: UserId, first: int, k: nat)
    requires id in db.users && db.users[id].lastActive == Some(first - 1)
    ensures var db' := StreakAfterDays(db, id, seq(k, i => first + i));
            && id in db'.users
            && db'.users[id].streak == db.users[id].streak + k
            && (k > 0 ==> db'.users[id].lastActive == Some(first + k - 1))
    decreases k
  {
    if k == 0 {
      assert seq(k, i => first + i) == [];
    } else {
      var days := seq(k, i => first + i);
      var db1 := UpdateStreak(db, id, first).0;
      assert days[0] == first;
      assert days[1..] == seq(k - 1, i => (first + 1) + i);
      ConsecutiveDaysExtendStreak(db1, id, first + 1, k - 1);
    }
  }

  /** A brand-new user is stamped with today's day on creation, so the streak
      update that follows on the same day keeps the initial streak of 0. */
  lemma FreshUserFirstStreakIsZero(db: Db, id: UserId, name: string, today: int)
    requires id !in db.users
    ensures UpdateStreak(CreateUser(db, id, name, today).0, id, today).1 == 0
  {
  }

  /** Insert-or-ignore of the pair (user, kind); true exactly when it was new. */
  function UnlockAchievement(db: Db, id: UserId, kind: string): (r: (Db, bool))
    ensures r.1 <==> (id, kind) !in db.achievements
    ensures r.0.achievements == db.achievements + {(id, kind)}
    ensures r.0.users == db.users && r.0.sessions == db.sessions
  {
    if (id, kind) in db.achievements then (db, false)
    else (db.(achievements := db.achievements + {(id, kind)}), true)
  }

  function HasAchievement(db: Db, id: UserId, kind: string): bool
  {
    (id, kind) in db.achievements
  }

  /** Unlocking is idempotent: afterwards the achievement is held, and a
      second unlock reports false and changes nothing. */
  lemma UnlockIdempotent(db: Db, id: UserId, kind: string)
    ensures var db1 := UnlockAchievement(db, id, kind).0;
            && HasAchievement(db1, id, kind)
            && UnlockAchievement(db1, id, kind) == (db1, false)
  {
  }

  /** Creates the user if needed and opens a session row; returns its id. */
  function StartSession(db: Db, id: UserId, name: string, now: int, today: int): (r: (Db, nat))
    ensures r.1 == |db.sessions| + 1
    ensures r.0.sessions == db.sessions + [Session(id, now, None, 0, 0)]
    ensures r.0.users == CreateUser(db, id, name, today).0.users
    ensures r.0.achievements == db.achievements
  {
    var db1 := CreateUser(db, id, name, today).0;
    (db1.(sessions := db1.sessions + [Session(id, now, None, 0, 0)]), |db1.sessions| + 1)
  }

  /** Closes the session row with the given id; an unknown id changes nothing. */
  function EndSession(db: Db, sessionId: nat, duration: nat, xpEarned: nat, now: int): (r: Db)
    ensures r.users == db.users && r.achievements == db.achievements
    ensures |r.sessions| == |db.sessions|
    ensures forall i :: 0 <= i < |db.sessions| && i != sessionId - 1 ==> r.sessions[i] == db.sessions[i]
    ensures 1 <= sessionId <= |db.sessions| ==>
      r.sessions[sessionId - 1] ==
        db.sessions[sessionId - 1].(leaveTime := Some(now), duration := duration, xpEarned := xpEarned)
  {
    if 1 <= sessionId <= |db.sessions| then
      var s := db.sessions[sessionId - 1];
      db.(sessions := db.sessions[sessionId - 1 := s.(leaveTime := Some(now), duration := duration, xpEarned := xpEarned)])
    else db
  }
}

=== FILE: watchdog.dfy ===
/** The current bot's event handlers: admission under a capacity ceiling,
    departures feeding the XP engine, check timers feeding the rate-limited
    delivery queue, confirmations and the deadline kick. Every event is a
    pure transition of a `Bot`; `now`, `today` and `hour` are inputs. */
module Watchdog {
  import opened Common
  import opened Store
  import opened Channels
  import opened Presence
  import Delivery
  import G = Gamification

  const MaxConcurrentUsers: nat := 500
  const WarnUserThreshold: nat := 100
  const LoadReportStep: nat := 50

  /** A queued send of the check for one user, armed for a channel and guild. */
  datatype Task = SendCheck(user: UserId, channelId: ChannelId, guildId: GuildId)

  datatype Bot = Bot(watch: Watch, queue: Delivery.Queue<Task>, engine: G.Engine)

  /** The watchdog's notion of an open stay and the XP engine's active
      sessions name the same users. */
  predicate Coupled(b: Bot)
  {
    && (forall u :: u in b.engine.active ==> u in b.watch.tracking && b.watch.tracking[u].joinTime.Some?)
    && (forall u :: u in b.watch.tracking && b.watch.tracking[u].joinTime.Some? ==> u in b.engine.active)
  }

  predicate Inv(b: Bot, now: int)
  {
    Presence.Inv(b.watch) && G.Valid(b.engine, now) && Coupled(b)
  }

  lemma InvLater(b: Bot, now: int, later: int)
    requires Inv(b, now) && now <= later
    ensures Inv(b, later)
  {
    G.ValidLater(b.engine, now, later);
  }

  /** The outcome of a join: refused at capacity, or admitted, possibly with
      a high-load report. */
  datatype Admission = Rejected | Admitted(loadReport: bool)

  /** The number of users the capacity check counts: every entry of the
      check-timer map, including entries whose callback already ran. */
  function Watched(b: Bot): nat
  {
    |b.watch.timers|
  }

  /** A user arrives in voice. At capacity nothing at all happens. Otherwise
      the XP engine opens a session (under the member's tag, or a placeholder
      when the member is not cached), the stay starts now and a live check
      timer is armed for the channel. */
  function HandleJoin(b: Bot, u: UserId, ch: ChannelId, g: GuildId, tag: Option<string>, now: int, today: int): (r: (Bot, Admission))
    ensures r.1 == Rejected <==> Watched(b) >= MaxConcurrentUsers
    ensures r.1 == Rejected ==> r.0 == b
    ensures r.1.Admitted? ==>
      (r.1.loadReport <==> Watched(b) >= WarnUserThreshold && Watched(b) % LoadReportStep == 0)
    ensures r.1.Admitted? ==>
      && r.0.watch.timers == b.watch.timers[u := CheckTimer(ch, g, true)]
      && u in r.0.watch.tracking && r.0.watch.tracking[u].joinTime == Some(now)
      && r.0.watch.tracking[u].totalTime == (if u in b.watch.tracking then b.watch.tracking[u].totalTime else 0)
      && (forall v :: v != u && v in b.watch.tracking ==> v in r.0.watch.tracking && r.0.watch.tracking[v] == b.watch.tracking[v])
      && r.0.watch.tracking.Keys == b.watch.tracking.Keys + {u}
      && r.0.watch.pending == b.watch.pending && r.0.watch.deadlines == b.watch.deadlines
      && r.0.watch.nextHandle == b.watch.nextHandle
      && r.0.queue == b.queue
      && u in r.0.engine.active && r.0.engine.active[u].joinTime == now
      && r.0.engine.active == b.engine.active[u := r.0.engine.active[u]]
      && u in r.0.engine.db.users
      && (u !in b.engine.db.users ==> r.0.engine.db.users[u].username == (if tag.Some? then tag.value else "Unknown User"))
  {
    if Watched(b) >= MaxConcurrentUsers then (b, Rejected)
    else
      var report := Watched(b) >= WarnUserThreshold && Watched(b) % LoadReportStep == 0;
      var name := if tag.Some? then tag.value else "Unknown User";
      var (e1, _) := G.HandleUserJoin(b.engine, u, name, now, today);
      var w := StartTimer(Arrive(b.watch, u, now), u, ch, g);
      (b.(watch := w, engine := e1), Admitted(report))
  }

  /** A user leaves voice (or is removed). An open stay is closed and handed
      to the XP engine; in every case the check timer and any pending
      challenge with its deadline are cancelled. The tracking entry stays. */
  function HandleLeave(b: Bot, u: UserId, now: int, hour: int): (r: (Bot, Option<G.LeaveResult>))
    requires G.Valid(b.engine, now)
    ensures u !in r.0.watch.timers && u !in r.0.watch.pending
    ensures r.0.watch.timers == b.watch.timers - {u}
    ensures r.0.watch == Leave(b.watch, u, now).0
    ensures r.0.queue == b.queue
    ensures r.1.Some? <==> Leave(b.watch, u, now).1 && u in b.engine.active
    ensures r.1.Some? ==> r.0.engine == G.HandleUserLeave(b.engine, u, now, hour).0
    ensures r.1.None? ==> r.0.engine == b.engine
    ensures Coupled(b) ==> Coupled(r.0) && u !in r.0.engine.active
  {
    var (w1, open) := Leave(b.watch, u, now);
    if open then
      var (e1, res) := G.HandleUserLeave(b.engine, u, now, hour);
      (b.(watch := w1, engine := e1), res)
    else (b.(watch := w1), None)
  }

  /** The total time a user has once an open stay is closed at `now`. */
  function Banked(w: Watch, u: UserId, now: int): int
  {
    if u !in w.tracking then 0
    else
      var t := w.tracking[u];
      if t.joinTime.Some? then t.totalTime + (now - t.joinTime.value) else t.totalTime
  }

  /** A move is a departure from the old channel followed by an arrival in
      the new one. The departure frees the mover's own slot before the
      capacity check, so a watched user is readmitted even at the ceiling;
      the old stay's time is banked and a new stay starts now, with a fresh
      live check for the new channel and no challenge outstanding. A refused
      arrival still leaves the departure in force. */
  function HandleMove(b: Bot, u: UserId, ch: ChannelId, g: GuildId, tag: Option<string>, now: int, today: int, hour: int): (r: (Bot, Admission))
    requires G.Valid(b.engine, now)
    ensures r == HandleJoin(HandleLeave(b, u, now, hour).0, u, ch, g, tag, now, today)
    ensures r.1 == Rejected <==> |b.watch.timers - {u}| >= MaxConcurrentUsers
    ensures u in b.watch.timers && Watched(b) <= MaxConcurrentUsers ==> r.1.Admitted?
    ensures r.1 == Rejected ==> u !in r.0.watch.timers && u !in r.0.watch.pending
    ensures r.1.Admitted? ==>
      && u in r.0.watch.timers && r.0.watch.timers[u] == CheckTimer(ch, g, true)
      && u !in r.0.watch.pending
      && u in r.0.watch.tracking && r.0.watch.tracking[u] == Tracking(Some(now), Banked(b.watch, u, now))
      && u in r.0.engine.active && r.0.engine.active[u].joinTime == now
  {
    var l := HandleLeave(b, u, now, hour).0;
    assert l.watch.timers.Keys == b.watch.timers.Keys - {u};
    HandleJoin(l, u, ch, g, tag, now, today)
  }

  /** The check timer's callback: the check is queued behind earlier sends
      and the drain is started unless one is running. A cancelled or already
      fired timer does nothing. */
  function TimerFires(b: Bot, u: UserId): (r: Bot)
    ensures !(u in b.watch.timers && b.watch.timers[u].live) ==> r == b
    ensures u in b.watch.timers && b.watch.timers[u].live ==>
      var t := b.watch.timers[u];
      && r.queue.items == b.queue.items + [SendCheck(u, t.channelId, t.guildId)]
      && r.queue.busy
      && u in r.watch.timers && !r.watch.timers[u].live
      && r.watch.timers[u].channelId == t.channelId && r.watch.timers[u].guildId == t.guildId
    ensures r.watch.timers.Keys == b.watch.timers.Keys
    ensures r.watch.tracking == b.watch.tracking && r.watch.pending == b.watch.pending
    ensures r.watch.deadlines == b.watch.deadlines && r.watch.nextHandle == b.watch.nextHandle
    ensures r.engine == b.engine
  {
    if u in b.watch.timers && b.watch.timers[u].live then
      var t := b.watch.timers[u];
      b.(watch := MarkFired(b.watch, u),
         queue := Delivery.StartDrain(Delivery.Enqueue(b.queue, SendCheck(u, t.channelId, t.guildId))))
    else b
  }

  /** One turn of the drain: the head task runs against what the platform
      shows at that moment (`view`), or the drain ends on an empty queue. */
  function QueueStep(b: Bot, view: CheckView): (r: Bot)
    requires Presence.Inv(b.watch)
    ensures Presence.Inv(r.watch)
    ensures !b.queue.busy ==> r == b
    ensures b.queue.busy && b.queue.items == [] ==> r == b.(queue := Delivery.Queue([], false))
    ensures b.queue.busy && b.queue.items != [] ==>
      var t := b.queue.items[0];
      && r.queue == Delivery.Queue(b.queue.items[1..], true)
      && r.watch == ApplyCheck(b.watch, t.user, t.channelId, t.guildId, Decide(view))
    ensures r.engine == b.engine && r.watch.tracking == b.watch.tracking
  {
    if !b.queue.busy then b
    else
      var (q1, next) := Delivery.NextTask(b.queue);
      match next
      case None => b.(queue := q1)
      case Some(t) =>
        b.(queue := q1, watch := ApplyCheck(b.watch, t.user, t.channelId, t.guildId, Decide(view)))
  }

  /** The drain turn with the challenge recorded as the sender writes it. */
  function QueueStepAsWritten(b: Bot, view: CheckView): Bot
  {
    if !b.queue.busy then b
    else
      var (q1, next) := Delivery.NextTask(b.queue);
      match next
      case None => b.(queue := q1)
      case Some(t) =>
        b.(queue := q1, watch := ApplyCheckAsWritten(b.watch, t.user, t.channelId, t.guildId, Decide(view)))
  }

  /** A reaction confirms only when it is not from a bot, the reaction could
      be loaded, and it is the confirm emoji on the user's current challenge. */
  function ReactionAdded(b: Bot, u: UserId, fromBot: bool, fetched: bool, messageId: MessageId, emoji: string): (r: Bot)
    ensures r == b || r == b.(watch := Presence.Confirm(b.watch, u))
    ensures r != b ==>
      !fromBot && fetched && u in b.watch.pending
      && IsConfirmingReaction(b.watch.pending[u].messageId, messageId, emoji)
    ensures (!fromBot && fetched && u in b.watch.pending
             && IsConfirmingReaction(b.watch.pending[u].messageId, messageId, emoji)) ==>
      u !in r.watch.pending
  {
    if fromBot || !fetched then b
    else if u in b.watch.pending && IsConfirmingReaction(b.watch.pending[u].messageId, messageId, emoji) then
      b.(watch := Presence.Confirm(b.watch, u))
    else b
  }

  /** A text message confirms when it is not from a bot, reads "!here" in
      any letter case, and the author has a challenge pending. */
  function MessageCreated(b: Bot, u: UserId, fromBot: bool, content: string): (r: Bot)
    ensures r == b || r == b.(watch := Presence.Confirm(b.watch, u))
    ensures r != b ==> !fromBot && IsHereCommand(content) && u in b.watch.pending
    ensures !fromBot && IsHereCommand(content) && u in b.watch.pending ==> u !in r.watch.pending
  {
    if !fromBot && IsHereCommand(content) && u in b.watch.pending then
      b.(watch := Presence.Confirm(b.watch, u))
    else b
  }

  /** Whether the kick reaches the leave handling: it does unless the guild
      or member cannot be resolved or the disconnect fails; a member already
      out of voice is not disconnected but still handled as leaving. A failed
      kick notice does not stop it. */
  predicate KickLeaves(view: KickView)
  {
    view.KickResolved? && (!view.inVoice || view.disconnected)
  }

  /** A deadline timer fires: the kick runs (per `view`), then the pending
      entry is dropped. The flag tells whether a member was disconnected. */
  function DeadlineFires(b: Bot, h: nat, view: KickView, now: int, hour: int): (r: (Bot, bool))
    requires G.Valid(b.engine, now)
    ensures h !in b.watch.deadlines ==> r == (b, false)
    ensures h in b.watch.deadlines ==>
      var u := b.watch.deadlines[h];
      && h !in r.0.watch.deadlines
      && u !in r.0.watch.pending
      && (r.1 <==> view.KickResolved? && view.inVoice && view.disconnected)
      && (KickLeaves(view) ==> u !in r.0.watch.timers)
      && (!KickLeaves(view) ==> r.0.watch.timers == b.watch.timers && r.0.engine == b.engine)
    ensures r.0.queue == b.queue
  {
    if h !in b.watch.deadlines then (b, false)
    else
      var u := b.watch.deadlines[h];
      var b1 := b.(watch := b.watch.(deadlines := b.watch.deadlines - {h}));
      var b2 := if KickLeaves(view) then HandleLeave(b1, u, now, hour).0 else b1;
      (b2.(watch := DropPending(b2.watch, u)), view.KickResolved? && view.inVoice && view.disconnected)
  }

  /** The events the bot reacts to, each carrying what it observes. */
  datatype Event =
    | JoinVoice(user: UserId, channelId: ChannelId, guildId: GuildId, tag: Option<string>, today: int)
    | LeaveVoice(user: UserId, hour: int)
    | MoveVoice(user: UserId, channelId: ChannelId, guildId: GuildId, tag: Option<string>, today: int, hour: int)
    | CheckTimerFired(user: UserId)
    | DrainTurn(view: CheckView)
    | Reaction(user: UserId, fromBot: bool, fetched: bool, messageId: MessageId, emoji: string)
    | Message(user: UserId, fromBot: bool, content: string)
    | DeadlineFired(handle: nat, kick: KickView, hour: int)

  /** Dispatches one event to its handler. Every event keeps the deadline
      bookkeeping one-to-one with the pending challenges and the XP engine's
      sessions open and well-formed. */
  function Step(b: Bot, now: int, ev: Event): (r: Bot)
    requires Presence.Inv(b.watch) && G.Valid(b.engine, now)
    ensures Presence.Inv(r.watch) && G.Valid(r.engine, now)
  {
    match ev
    case JoinVoice(u, ch, g, tag, today) =>
      JoinKeepsInvWeak(b, u, ch, g, tag, now, today);
      HandleJoin(b, u, ch, g, tag, now, today).0
    case LeaveVoice(u, hour) =>
      LeaveKeepsParts(b, u, now, hour);
      HandleLeave(b, u, now, hour).0
    case MoveVoice(u, ch, g, tag, today, hour) =>
      LeaveKeepsParts(b, u, now, hour);
      JoinKeepsInvWeak(HandleLeave(b, u, now, hour).0, u, ch, g, tag, now, today);
      HandleMove(b, u, ch, g, tag, now, today, hour).0
    case CheckTimerFired(u) => TimerFires(b, u)
    case DrainTurn(view) => QueueStep(b, view)
    case Reaction(u, fromBot, fetched, m, emoji) =>
      if u in b.watch.pending then
        ConfirmLeavesNoDeadline(b.watch, u);
        ReactionAdded(b, u, fromBot, fetched, m, emoji)
      else ReactionAdded(b, u, fromBot, fetched, m, emoji)
    case Message(u, fromBot, content) =>
      if u in b.watch.pending then
        ConfirmLeavesNoDeadline(b.watch, u);
        MessageCreated(b, u, fromBot, content)
      else MessageCreated(b, u, fromBot, content)
    case DeadlineFired(h, kick, hour) =>
      DeadlineKeepsParts(b, h, kick, now, hour);
      DeadlineFires(b, h, kick, now, hour).0
  }

  lemma LeaveKeepsParts(b: Bot, u: UserId, now: int, hour: int)
    requires Presence.Inv(b.watch) && G.Valid(b.engine, now)
    ensures var r := HandleLeave(b, u, now, hour).0;
      Presence.Inv(r.watch) && G.Valid(r.engine, now)
  {
    Presence.LeaveKeepsInv(b.watch, u, now);
    G.HandleUserLeaveValid(b.engine, u, now, hour);
  }

  lemma DeadlineKeepsParts(b: Bot, h: nat, view: KickView, now: int, hour: int)
    requires Presence.Inv(b.watch) && G.Valid(b.engine, now)
    ensures var r := DeadlineFires(b, h, view, now, hour).0;
      Presence.Inv(r.watch) && G.Valid(r.engine, now)
  {
    if h in b.watch.deadlines {
      var u := b.watch.deadlines[h];
      var b1 := b.(watch := b.watch.(deadlines := b.watch.deadlines - {h}));
      if KickLeaves(view) {
        SpentDeadlineThenLeave(b.watch, h, now);
        assert HandleLeave(b1, u, now, hour).0 == HandleLeave(b, u, now, hour).0;
        LeaveKeepsParts(b, u, now, hour);
      } else {
        SpentDeadlineThenDrop(b.watch, h);
      }
    }
  }

  lemma JoinKeepsInv(b: Bot, u: UserId, ch: ChannelId, g: GuildId, tag: Option<string>, now: int, today: int)
    requires Inv(b, now)
    ensures Inv(HandleJoin(b, u, ch, g, tag, now, today).0, now)
  {
    var name := if tag.Some? then tag.value else "Unknown User";
    G.HandleUserJoinValid(b.engine, u, name, now, today);
  }

  lemma LeaveKeepsInv(b: Bot, u: UserId, now: int, hour: int)
    requires Inv(b, now)
    ensures Inv(HandleLeave(b, u, now, hour).0, now)
  {
    Presence.LeaveKeepsInv(b.watch, u, now);
    G.HandleUserLeaveValid(b.engine, u, now, hour);
  }

  lemma DeadlineKeepsInv(b: Bot, h: nat, view: KickView, now: int, hour: int)
    requires Inv(b, now)
    ensures Inv(DeadlineFires(b, h, view, now, hour).0, now)
  {
    if h in b.watch.deadlines {
      var u := b.watch.deadlines[h];
      var b1 := b.(watch := b.watch.(deadlines := b.watch.deadlines - {h}));
      if KickLeaves(view) {
        SpentDeadlineThenLeave(b.watch, h, now);
        assert HandleLeave(b1, u, now, hour).0 == HandleLeave(b, u, now, hour).0;
        LeaveKeepsInv(b, u, now, hour);
      } else {
        SpentDeadlineThenDrop(b.watch, h);
      }
    }
  }

  /** Every event keeps the invariant. */
  lemma StepKeepsInv(b: Bot, now: int, ev: Event)
    requires Inv(b, now)
    ensures Inv(Step(b, now, ev), now)
  {
    match ev
    case JoinVoice(u, ch, g, tag, today) => JoinKeepsInv(b, u, ch, g, tag, now, today);
    case LeaveVoice(u, hour) => LeaveKeepsInv(b, u, now, hour);
    case MoveVoice(u, ch, g, tag, today, hour) =>
      LeaveKeepsInv(b, u, now, hour);
      JoinKeepsInv(HandleLeave(b, u, now, hour).0, u, ch, g, tag, now, today);
    case CheckTimerFired(u) =>
    case DrainTurn(view) =>
    case Reaction(u, fromBot, fetched, m, emoji) =>
    case Message(u, fromBot, content) =>
    case DeadlineFired(h, kick, hour) => DeadlineKeepsInv(b, h, kick, now, hour);
  }

  /** An event stamped with the clock reading at which it happens. */
  datatype Timed = Timed(at: int, event: Event)

  /** The clock never runs backwards along a trace. */
  predicate Monotone(now: int, evs: seq<Timed>)
    decreases |evs|
  {
    evs == [] || (now <= evs[0].at && Monotone(evs[0].at, evs[1..]))
  }

  /** Runs a trace from a state satisfying the invariant; the invariant holds
      after every prefix, at the time of the last event. */
  function Run(b: Bot, now: int, evs: seq<Timed>): (r: (Bot, int))
    requires Inv(b, now) && Monotone(now, evs)
    ensures Inv(r.0, r.1) && now <= r.1
    decreases |evs|
  {
    if evs == [] then (b, now)
    else
      var t := evs[0];
      InvLater(b, now, t.at);
      StepKeepsInv(b, t.at, t.event);
      Run(Step(b, t.at, t.event), t.at, evs[1..])
  }

  /** The ceiling holds: once the bot watches `MaxConcurrentUsers` users no
      join adds another, and a join never adds more than one. */
  lemma JoinRespectsCeiling(b: Bot, u: UserId, ch: ChannelId, g: GuildId, tag: Option<string>, now: int, today: int)
    ensures var r := HandleJoin(b, u, ch, g, tag, now, today).0;
      Watched(r) <= Watched(b) + 1
      && (Watched(b) <= MaxConcurrentUsers ==> Watched(r) <= MaxConcurrentUsers)
  {
    var r := HandleJoin(b, u, ch, g, tag, now, today).0;
    if Watched(b) < MaxConcurrentUsers {
      assert r.watch.timers.Keys == b.watch.timers.Keys + {u};
      assert |r.watch.timers.Keys| <= |b.watch.timers.Keys| + 1;
    }
  }

  /** A departure frees the user's slot, so a member moving between channels
      at full capacity is readmitted. */
  lemma DepartureFreesSlot(b: Bot, u: UserId, ch: ChannelId, g: GuildId, tag: Option<string>, now: int, today: int, hour: int)
    requires G.Valid(b.engine, now) && u in b.watch.timers
    ensures Watched(HandleLeave(b, u, now, hour).0) == Watched(b) - 1
    ensures Watched(b) <= MaxConcurrentUsers ==> HandleMove(b, u, ch, g, tag, now, today, hour).1.Admitted?
  {
    var r := HandleLeave(b, u, now, hour).0;
    assert r.watch.timers.Keys == b.watch.timers.Keys - {u};
  }

  /** A move closes the stay in the old channel (its time is banked) and
      starts a new stay now, with a fresh live check for the new channel and
      no challenge outstanding. */
  lemma MoveRestartsAccrual(b: Bot, u: UserId, ch: ChannelId, g: GuildId, tag: Option<string>, now: int, today: int, hour: int)
    requires G.Valid(b.engine, now)
    requires u in b.watch.tracking && b.watch.tracking[u].joinTime.Some?
    requires u in b.watch.timers
    requires Watched(b) <= MaxConcurrentUsers
    ensures var r := HandleMove(b, u, ch, g, tag, now, today, hour).0;
      var t := b.watch.tracking[u];
      && r.watch.tracking[u] == Tracking(Some(now), t.totalTime + (now - t.joinTime.value))
      && r.watch.timers[u] == CheckTimer(ch, g, true)
      && u !in r.watch.pending
  {
    DepartureFreesSlot(b, u, ch, g, tag, now, today, hour);
  }

  /** Once the deadline has fired, a late confirmation changes nothing. */
  lemma ConfirmAfterKickIsNoop(b: Bot, h: nat, view: KickView, now: int, hour: int, content: string)
    requires Inv(b, now) && h in b.watch.deadlines
    ensures var (r, _) := DeadlineFires(b, h, view, now, hour);
      MessageCreated(r, b.watch.deadlines[h], false, content) == r
  {
  }

  /** With the challenge recorded after cancelling the previous one, a user
      who has just confirmed has no deadline left that could remove them. */
  lemma ConfirmedUserHasNoDeadline(b: Bot, u: UserId, content: string, now: int)
    requires Inv(b, now) && IsHereCommand(content) && u in b.watch.pending
    ensures var r := MessageCreated(b, u, false, content);
      forall h :: h in r.watch.deadlines ==> r.watch.deadlines[h] != u
  {
    ConfirmLeavesNoDeadline(b.watch, u);
  }


  /** A check that finds the member in voice, a "general" channel to post
      in, and a successful post of message `m`. */
  function PostsIn(m: MessageId): CheckView
  {
    Resolved("lounge", true, [Channel("general", true, false)], Posted(m))
  }

  /** Where the double-challenge schedule starts: the bot is idle towards
      `u`, has room for them, and nothing is queued. */
  predicate Quiet(b: Bot, u: UserId, now: int)
  {
    && Presence.Inv(b.watch) && G.Valid(b.engine, now)
    && u !in b.watch.timers && u !in b.watch.pending
    && b.queue == Delivery.Queue([], false)
    && Watched(b) < MaxConcurrentUsers
  }

  /** First part of the schedule: `u` joins, the check fires and is queued,
      `u` moves before it is sent, and the second check fires too. Both
      checks now wait in the queue, and no challenge is outstanding. */
  function TwoChecksQueued(b: Bot, u: UserId, c1: ChannelId, c2: ChannelId, g: GuildId, now: int): (r: Bot)
    requires Quiet(b, u, now)
    ensures r.queue == Delivery.Queue([SendCheck(u, c1, g), SendCheck(u, c2, g)], true)
    ensures Presence.Inv(r.watch) && G.Valid(r.engine, now)
    ensures u !in r.watch.pending
    ensures r.watch.nextHandle == b.watch.nextHandle
  {
    CheckQueuedAfterJoin(b, u, c1, g, now);
    var b2 := TimerFires(HandleJoin(b, u, c1, g, None, now, 0).0, u);
    SecondCheckQueuedAfterMove(b2, u, c2, g, now);
    TimerFires(HandleMove(b2, u, c2, g, None, now, 0, 0).0, u)
  }

  lemma CheckQueuedAfterJoin(b: Bot, u: UserId, c1: ChannelId, g: GuildId, now: int)
    requires Quiet(b, u, now)
    ensures var r := TimerFires(HandleJoin(b, u, c1, g, None, now, 0).0, u);
      && r.queue == Delivery.Queue([SendCheck(u, c1, g)], true)
      && Presence.Inv(r.watch) && G.Valid(r.engine, now)
      && u in r.watch.timers && u !in r.watch.pending
      && Watched(r) <= MaxConcurrentUsers
      && r.watch.nextHandle == b.watch.nextHandle
  {
    JoinFromQuiet(b, u, c1, g, now);
  }

  lemma SecondCheckQueuedAfterMove(b: Bot, u: UserId, c2: ChannelId, g: GuildId, now: int)
    requires Presence.Inv(b.watch) && G.Valid(b.engine, now)
    requires u in b.watch.timers && Watched(b) <= MaxConcurrentUsers
    ensures var r := TimerFires(HandleMove(b, u, c2, g, None, now, 0, 0).0, u);
      && r.queue.items == b.queue.items + [SendCheck(u, c2, g)] && r.queue.busy
      && Presence.Inv(r.watch) && G.Valid(r.engine, now)
      && u !in r.watch.pending
      && r.watch.nextHandle == b.watch.nextHandle
  {
    MoveFromWatched(b, u, c2, g, now);
  }

  lemma JoinFromQuiet(b: Bot, u: UserId, c: ChannelId, g: GuildId, now: int)
    requires Quiet(b, u, now)
    ensures var r := HandleJoin(b, u, c, g, None, now, 0).0;
      && Presence.Inv(r.watch) && G.Valid(r.engine, now)
      && u in r.watch.timers && r.watch.timers[u] == CheckTimer(c, g, true)
      && u !in r.watch.pending && r.queue == b.queue
      && r.watch.nextHandle == b.watch.nextHandle
      && Watched(r) <= MaxConcurrentUsers
  {
    JoinKeepsInvWeak(b, u, c, g, None, now, 0);
    JoinRespectsCeiling(b, u, c, g, None, now, 0);
  }

  /** Joining keeps the watch invariant and the engine's validity. */
  lemma JoinKeepsInvWeak(b: Bot, u: UserId, ch: ChannelId, g: GuildId, tag: Option<string>, now: int, today: int)
    requires Presence.Inv(b.watch) && G.Valid(b.engine, now)
    ensures var r := HandleJoin(b, u, ch, g, tag, now, today).0;
      Presence.Inv(r.watch) && G.Valid(r.engine, now)
  {
    var name := if tag.Some? then tag.value else "Unknown User";
    G.HandleUserJoinValid(b.engine, u, name, now, today);
  }

  lemma MoveFromWatched(b: Bot, u: UserId, c: ChannelId, g: GuildId, now: int)
    requires Presence.Inv(b.watch) && G.Valid(b.engine, now)
    requires u in b.watch.timers && Watched(b) <= MaxConcurrentUsers
    ensures var r := HandleMove(b, u, c, g, None, now, 0, 0).0;
      && Presence.Inv(r.watch) && G.Valid(r.engine, now)
      && u in r.watch.timers && r.watch.timers[u] == CheckTimer(c, g, true)
      && u !in r.watch.pending && r.queue == b.queue
      && r.watch.nextHandle == b.watch.nextHandle
  {
    DepartureFreesSlot(b, u, c, g, None, now, 0, 0);
    var b1 := HandleLeave(b, u, now, 0).0;
    Presence.LeaveKeepsInv(b.watch, u, now);
    G.HandleUserLeaveValid(b.engine, u, now, 0);
    JoinKeepsInvWeak(b1, u, c, g, None, now, 0);
  }

  /** A drain turn whose check posts message `m` records the challenge for
      the head task's user, channel and guild. */
  lemma PostingTurn(b: Bot, m: MessageId)
    requires b.queue.busy && b.queue.items != []
    ensures var t := b.queue.items[0];
      QueueStepAsWritten(b, PostsIn(m))
        == b.(queue := Delivery.Queue(b.queue.items[1..], true),
              watch := PostChallengeAsWritten(b.watch, t.user, m, t.channelId, t.guildId))
    ensures Presence.Inv(b.watch) ==>
      var t := b.queue.items[0];
      QueueStep(b, PostsIn(m))
        == b.(queue := Delivery.Queue(b.queue.items[1..], true),
              watch := PostChallenge(b.watch, t.user, m, t.channelId, t.guildId))
  {
    assert SelectTextChannel([Channel("general", true, false)], "lounge") == Some(0);
    assert Decide(PostsIn(m)) == Challenge(m);
  }

  /** Both queued checks are sent and recorded as the sender writes them:
      the second challenge replaces the first, and both deadlines stay armed. */
  lemma TwoPostsAsWritten(b: Bot, u: UserId, c1: ChannelId, c2: ChannelId, g: GuildId)
    requires b.queue == Delivery.Queue([SendCheck(u, c1, g), SendCheck(u, c2, g)], true)
    ensures var n := b.watch.nextHandle;
      var r := QueueStepAsWritten(QueueStepAsWritten(b, PostsIn("m1")), PostsIn("m2"));
      && u in r.watch.pending && r.watch.pending[u] == Confirmation("m2", c2, g, n + 1)
      && r.watch.deadlines == b.watch.deadlines[n := u][n + 1 := u]
      && r.engine == b.engine
  {
    PostingTurn(b, "m1");
    var b5 := QueueStepAsWritten(b, PostsIn("m1"));
    assert b5.queue.items == [SendCheck(u, c2, g)];
    PostingTurn(b5, "m2");
  }

  /** Confirming the newer challenge cancels only its own deadline; an older
      deadline for the same user survives with nothing pending. */
  lemma ConfirmLeavesOrphan(w: Watch, u: UserId, n: nat)
    requires u in w.pending && w.pending[u].deadline == n + 1
    requires n in w.deadlines && w.deadlines[n] == u
    ensures var r := Presence.Confirm(w, u);
      && u !in r.pending
      && n in r.deadlines && r.deadlines[n] == u
      && !Presence.Inv(r)
  {
  }

  /** Both queued checks are sent, recorded as the sender writes them, and
      `u` then confirms with "!here". */
  lemma BothSentThenConfirmedAsWritten(b: Bot, u: UserId, c1: ChannelId, c2: ChannelId, g: GuildId)
    requires b.queue == Delivery.Queue([SendCheck(u, c1, g), SendCheck(u, c2, g)], true)
    ensures var n := b.watch.nextHandle;
      var r := MessageCreated(QueueStepAsWritten(QueueStepAsWritten(b, PostsIn("m1")), PostsIn("m2")), u, false, "!here");
      && u !in r.watch.pending
      && n in r.watch.deadlines && r.watch.deadlines[n] == u
      && !Presence.Inv(r.watch)
      && r.engine == b.engine
  {
    TwoPostsAsWritten(b, u, c1, c2, g);
    var b6 := QueueStepAsWritten(QueueStepAsWritten(b, PostsIn("m1")), PostsIn("m2"));
    assert IsHereCommand("!here");
    ConfirmLeavesOrphan(b6.watch, u, b.watch.nextHandle);
  }

  /** The double-challenge schedule, as written: a check for `u` is queued;
      before it is sent `u` moves, so a second check is armed, fires and is
      queued behind it; both sends succeed, the second overwriting the first
      challenge without cancelling its deadline; `u` confirms with "!here";
      the first deadline is still armed and disconnects `u` anyway. */
  lemma DuplicateChallengeKicksConfirmedUser(b: Bot, u: UserId, c1: ChannelId, c2: ChannelId, g: GuildId, now: int)
    requires Quiet(b, u, now)
    ensures var b4 := TwoChecksQueued(b, u, c1, c2, g, now);
      var r := MessageCreated(QueueStepAsWritten(QueueStepAsWritten(b4, PostsIn("m1")), PostsIn("m2")), u, false, "!here");
      var n := b.watch.nextHandle;
      && u !in r.watch.pending
      && n in r.watch.deadlines && r.watch.deadlines[n] == u
      && !Presence.Inv(r.watch)
      && G.Valid(r.engine, now)
      && DeadlineFires(r, n, KickResolved(true, true, true), now, 0).1
  {
    BothSentThenConfirmedAsWritten(TwoChecksQueued(b, u, c1, c2, g, now), u, c1, c2, g);
  }

  /** The same schedule with each challenge superseding the previous one:
      after the confirmation no deadline is left for `u`. */
  lemma DuplicateChallengeCorrected(b: Bot, u: UserId, c1: ChannelId, c2: ChannelId, g: GuildId, now: int)
    requires Quiet(b, u, now)
    ensures var b4 := TwoChecksQueued(b, u, c1, c2, g, now);
      var r := MessageCreated(QueueStep(QueueStep(b4, PostsIn("m1")), PostsIn("m2")), u, false, "!here");
      && u !in r.watch.pending
      && forall h :: h in r.watch.deadlines ==> r.watch.deadlines[h] != u
  {
    BothSentThenConfirmed(TwoChecksQueued(b, u, c1, c2, g, now), u, c1, c2, g);
  }

  /** Both queued checks are sent, each challenge superseding the previous,
      and `u` then confirms with "!here". */
  lemma BothSentThenConfirmed(b: Bot, u: UserId, c1: ChannelId, c2: ChannelId, g: GuildId)
    requires b.queue == Delivery.Queue([SendCheck(u, c1, g), SendCheck(u, c2, g)], true)
    requires Presence.Inv(b.watch)
    ensures Presence.Inv(QueueStep(b, PostsIn("m1")).watch)
    ensures var r := MessageCreated(QueueStep(QueueStep(b, PostsIn("m1")), PostsIn("m2")), u, false, "!here");
      && u !in r.watch.pending
      && forall h :: h in r.watch.deadlines ==> r.watch.deadlines[h] != u
  {
    PostingTurn(b, "m1");
    var b5 := QueueStep(b, PostsIn("m1"));
    assert b5.queue.items == [SendCheck(u, c2, g)];
    PostingTurn(b5, "m2");
    var b6 := QueueStep(b5, PostsIn("m2"));
    assert u in b6.watch.pending;
    assert IsHereCommand("!here");
    ConfirmLeavesNoDeadline(b6.watch, u);
  }
}
